=== FILE: README.md ===
# YAKS step logic in Dafny

This project models three pieces of the YAKS test toolkit and proves properties of them.

- **OpenAPI client steps** (`openapi_client.dfy`, module `OpenApiClient`). A scenario invokes an operation of the loaded OpenAPI document by its operation id. The step finds the first operation with that id. It then sends a request generated from the operation's required header and query parameters, its path parameters and its request body schema. A later step describes the expected response for a numeric status or a response name: the required headers, the body, the content type and the status. The HTTP client steps these steps drive are recorded as the sequence of calls they receive (`ClientCall`).
- **HTTP server steps** (`http_server.dfy`, module `HttpServer`). Request headers, response headers, bodies and body-validation expressions are collected in the step object. A receive step or a send step turns them into a message for the test runner and clears what it used. The runner is recorded as the sequence of actions it is given (`ServerAction`).
- **Resource filters of the `vfs-gen` generator** (`vfs_gen.dfy`, module `VfsGen`). These decide which files of the embedded resource tree are skipped: by base name, by parent-directory prefix, or by exclusions collected from `.vfsignore` markers. A wrapper reports a zero modification time for every file.

Shared pieces:
- `oas_model.dfy` (module `OasModel`) holds the OpenAPI document as plain data. It also holds `Helpers`, a record of functions standing for the schema helper and the test-data generator. Their code is not part of this model.
- `text.dfy` (module `Text`) holds occurrence tests (a pattern at an index, a pattern anywhere), Java's `replaceAll` on a literal pattern, ASCII upper-casing and decimal digit strings.
- `wrappers.dfy` holds `Option`, `Outcome` and `Result`. A Java `null` becomes `None`. A thrown exception or a fatal log exit becomes `Fail` or `Err`.

The environment is passed in as parameters:
- the loaded document and the OpenAPI URL;
- the names of the test variables in the context;
- the application context's bean ids and HTTP-server bean ids;
- the status codes `HttpStatus` knows;
- the entries the directory walk visits.

## Model

| member | source | states |
|---|---|---|
| `OpenApiClient.FirstMatch` | java/steps/yaks-openapi/src/main/java/org/citrusframework/yaks/openapi/OpenApiClientSteps.java:92-94 | the index found carries the operation id and no earlier entry of the path item does; `None` exactly when no entry does |
| `OpenApiClient.HasId` | java/steps/yaks-openapi/src/main/java/org/citrusframework/yaks/openapi/OpenApiClientSteps.java:93 | an operation entry carries the operation id when its `operationId` is present and equal to it |
| `OpenApiClient.Locate` | java/steps/yaks-openapi/src/main/java/org/citrusframework/yaks/openapi/OpenApiClientSteps.java:91-101 | the operation found carries the id, and no operation of an earlier path item or earlier in its own item does; `None` if and only if no operation in the document carries it |
| `OpenApiClient.OpenApiClientSteps.InvokeOperation` | java/steps/yaks-openapi/src/main/java/org/citrusframework/yaks/openapi/OpenApiClientSteps.java:89-102 | the first match becomes the stored operation and exactly its request calls are appended; with no match neither the operation nor the calls change and no error is raised |
| `OpenApiClient.RequiredParamCallsExactly` | java/steps/yaks-openapi/src/main/java/org/citrusframework/yaks/openapi/OpenApiClientSteps.java:122-131 | a header or query call is produced if and only if some parameter is declared there with `required` present and true, and the value comes from that parameter's schema |
| `OpenApiClient.RequiredParamCallsKind` | java/steps/yaks-openapi/src/main/java/org/citrusframework/yaks/openapi/OpenApiClientSteps.java:123-131 | the header pass produces only request headers and the query pass only query parameters |
| `OpenApiClient.RequiredIn` | java/steps/yaks-openapi/src/main/java/org/citrusframework/yaks/openapi/OpenApiClientSteps.java:124-130 | a parameter passes both filters when its `in` is the location and its `required` flag is present and true |
| `OpenApiClient.ParamCall` | java/steps/yaks-openapi/src/main/java/org/citrusframework/yaks/openapi/OpenApiClientSteps.java:126-131 | a header pass adds a request header named after the parameter, a query pass a query parameter named after it |
| `OpenApiClient.RequiredParamCalls` | java/steps/yaks-openapi/src/main/java/org/citrusframework/yaks/openapi/OpenApiClientSteps.java:123-131 | the calls of one filtered parameter pass, in declaration order, at most one per parameter; which calls they are is the two rows above |
| `OpenApiClient.AddRequiredParams` | java/steps/yaks-openapi/src/main/java/org/citrusframework/yaks/openapi/OpenApiClientSteps.java:123-126 | the parameter loop produces exactly the required-parameter calls, in declaration order |
| `OpenApiClient.BodyCalls` | java/steps/yaks-openapi/src/main/java/org/citrusframework/yaks/openapi/OpenApiClientSteps.java:134-143 | a request body is set if and only if a body schema is present; the outbound dictionary is set if and only if that schema is a reference, object or array type |
| `OasModel.Helpers.IsStructured` | java/steps/yaks-openapi/src/main/java/org/citrusframework/yaks/openapi/OpenApiClientSteps.java:138-140 | the schema is a reference, an object or an array type, the test that selects the dictionary for a request or response body |
| `OpenApiClient.PathParams` | java/steps/yaks-openapi/src/main/java/org/citrusframework/yaks/openapi/OpenApiClientSteps.java:147-149 | holds exactly the parameters declared `in: path`, whether required or not, and no more entries than the declaration list |
| `OpenApiClient.PathParamsConcat` | java/steps/yaks-openapi/src/main/java/org/citrusframework/yaks/openapi/OpenApiClientSteps.java:147-149 | the path parameters of two declaration lists in a row are those of the first followed by those of the second: the filter keeps declaration order and repeats |
| `OpenApiClient.PathParamsSingle` | java/steps/yaks-openapi/src/main/java/org/citrusframework/yaks/openapi/OpenApiClientSteps.java:148 | a single parameter is kept exactly when it is declared `in: path` |
| `OpenApiClient.Substitute` | java/steps/yaks-openapi/src/main/java/org/citrusframework/yaks/openapi/OpenApiClientSteps.java:151-161 | the path template after each path parameter in turn replaced its placeholders; its properties are the rows that follow |
| `OpenApiClient.PathValue` | java/steps/yaks-openapi/src/main/java/org/citrusframework/yaks/openapi/OpenApiClientSteps.java:152-157 | what replaces `{name}`: `${name}` when the test context has that variable, else the generated value (the `\$` escape of the Java replacement string already undone) |
| `OpenApiClient.SubstituteConcat` | java/steps/yaks-openapi/src/main/java/org/citrusframework/yaks/openapi/OpenApiClientSteps.java:151-161 | the parameters act one after another in declaration order: substituting two lists in a row is substituting the second into the result of the first |
| `OpenApiClient.RandomizePath` | java/steps/yaks-openapi/src/main/java/org/citrusframework/yaks/openapi/OpenApiClientSteps.java:145-162 | the path loop yields the template with each path parameter's placeholders replaced in turn |
| `OpenApiClient.SubstituteWithoutPlaceholders` | java/steps/yaks-openapi/src/main/java/org/citrusframework/yaks/openapi/OpenApiClientSteps.java:151-161 | a template holding no placeholder of any path parameter is sent unchanged |
| `OpenApiClient.SubstituteSingle` | java/steps/yaks-openapi/src/main/java/org/citrusframework/yaks/openapi/OpenApiClientSteps.java:152-160 | the placeholder `{name}` becomes `${name}` when the context has that variable and the generated value otherwise; the text around it is unchanged |
| `OpenApiClient.PetsExample` | java/steps/yaks-openapi/src/main/java/org/citrusframework/yaks/openapi/OpenApiClientSteps.java:145-161 | `/pets/{id}` with a path parameter `id` that is not a variable becomes `/pets/` followed by the generated value |
| `Text.ReplaceAllNoOccurrence` | java/steps/yaks-openapi/src/main/java/org/citrusframework/yaks/openapi/OpenApiClientSteps.java:158-160 | `replaceAll` leaves a string without the pattern unchanged |
| `Text.ReplaceAllFirstOccurrence` | java/steps/yaks-openapi/src/main/java/org/citrusframework/yaks/openapi/OpenApiClientSteps.java:158-160 | `replaceAll` replaces the first occurrence, keeps the text before it, and resumes after it; with the previous row this determines the whole result |
| `Text.ReplaceAll` | java/steps/yaks-openapi/src/main/java/org/citrusframework/yaks/openapi/OpenApiClientSteps.java:158-160 | `Matcher.replaceAll` on a literal, non-empty pattern; characterised by the two rows above |
| `OpenApiClient.SendRequestSendsOnce` | java/steps/yaks-openapi/src/main/java/org/citrusframework/yaks/openapi/OpenApiClientSteps.java:164-168 | exactly one request is sent, as the last call, with the upper-cased method and the substituted path; a Content-Type header is added when the request content type is present (the converse is the next row) |
| `Text.Upper` | java/steps/yaks-openapi/src/main/java/org/citrusframework/yaks/openapi/OpenApiClientSteps.java:168 | `toUpperCase` for ASCII: same length, no lower-case ASCII letter left, every other character kept |
| `OpenApiClient.ContentTypeHeaderExactly` | java/steps/yaks-openapi/src/main/java/org/citrusframework/yaks/openapi/OpenApiClientSteps.java:164-165 | a Content-Type request header with value v is sent exactly when the request content type is v or a required header parameter named Content-Type got v; nothing else adds it |
| `OpenApiClient.ContentTypeCalls` | java/steps/yaks-openapi/src/main/java/org/citrusframework/yaks/openapi/OpenApiClientSteps.java:164-165 | a Content-Type request header is added exactly when the request content type is present, and only with that value |
| `OpenApiClient.SendRequestCalls` | java/steps/yaks-openapi/src/main/java/org/citrusframework/yaks/openapi/OpenApiClientSteps.java:121-169 | the functional model of `sendRequest`: header parameters, query parameters, body, content type, URL, then the send; its properties are `SendRequestSendsOnce`, `ContentTypeHeaderExactly`, `RequiredParamCallsExactly` and `BodyCalls` |
| `OpenApiClient.OpenApiClientSteps.SendRequest` | java/steps/yaks-openapi/src/main/java/org/citrusframework/yaks/openapi/OpenApiClientSteps.java:121-169 | appends: headers, query parameters, body, content type, URL, then the send |
| `OpenApiClient.ExpectRequiredHeaders` | java/steps/yaks-openapi/src/main/java/org/citrusframework/yaks/openapi/OpenApiClientSteps.java:182-187 | the header loop yields the expected-header calls for the required headers |
| `OpenApiClient.HeaderExpectationsOnePerHeader` | java/steps/yaks-openapi/src/main/java/org/citrusframework/yaks/openapi/OpenApiClientSteps.java:184-186 | each required response header yields exactly one expected header, in order, with its schema's validation expression |
| `OpenApiClient.HeaderExpectations` | java/steps/yaks-openapi/src/main/java/org/citrusframework/yaks/openapi/OpenApiClientSteps.java:184-186 | one expected response header per required header, in order; characterised by the row above |
| `OpenApiClient.DefinitionCalls` | java/steps/yaks-openapi/src/main/java/org/citrusframework/yaks/openapi/OpenApiClientSteps.java:177-200 | the header expectations of the chosen definition, then its body and inbound dictionary; nothing without a definition |
| `OpenApiClient.ResponseBodyCalls` | java/steps/yaks-openapi/src/main/java/org/citrusframework/yaks/openapi/OpenApiClientSteps.java:189-198 | an expected body is set if and only if the response schema is present; the inbound dictionary if and only if that schema is a reference, object or array; nothing else |
| `OpenApiClient.ResponseContentTypeCalls` | java/steps/yaks-openapi/src/main/java/org/citrusframework/yaks/openapi/OpenApiClientSteps.java:202-203 | a Content-Type response header is expected exactly when the response content type is present, and only with that value |
| `OpenApiClient.ReceiveResponseFallback` | java/steps/yaks-openapi/src/main/java/org/citrusframework/yaks/openapi/OpenApiClientSteps.java:177-209 | the exact response item is used when present, else the default; with neither (or no responses) only the content type and the status are expected |
| `OpenApiClient.ResponseFor` | java/steps/yaks-openapi/src/main/java/org/citrusframework/yaks/openapi/OpenApiClientSteps.java:178-179 | the exact response item when the operation has one, else the default item itself (which may be absent); `None` exactly when the operation has no responses or neither exists |
| `OpenApiClient.ExpectedStatus` | java/steps/yaks-openapi/src/main/java/org/citrusframework/yaks/openapi/OpenApiClientSteps.java:205-209 | a status key that is not all digits expects 200; the expected status is never negative |
| `OpenApiClient.ReceiveResponseCalls` | java/steps/yaks-openapi/src/main/java/org/citrusframework/yaks/openapi/OpenApiClientSteps.java:176-210 | the functional model of `receiveResponse`: definition expectations, response content type, then the receive; its properties are `ReceiveResponseReceivesOnce`, `ReceiveResponseFallback` and `ResponseFor` |
| `OpenApiClient.ReceiveResponseReceivesOnce` | java/steps/yaks-openapi/src/main/java/org/citrusframework/yaks/openapi/OpenApiClientSteps.java:176-210 | exactly one receive, as the last call, with the status the key stands for; every earlier call sets an expected header, the expected body or the inbound dictionary |
| `OpenApiClient.ExpectedStatusOfNumber` | java/steps/yaks-openapi/src/main/java/org/citrusframework/yaks/openapi/OpenApiClientSteps.java:205-209 | verifying by a number n expects n for every n ≥ 0, and 200 for a negative n, whose sign fails `[0-9]+` |
| `Text.DigitsRoundTrip` | java/steps/yaks-openapi/src/main/java/org/citrusframework/yaks/openapi/OpenApiClientSteps.java:205-206 | the decimal string of a non-negative number matches `[0-9]+` and parses back to the number |
| `Text.Digits` | java/steps/yaks-openapi/src/main/java/org/citrusframework/yaks/openapi/OpenApiClientSteps.java:106 | `String.valueOf` of a non-negative number: at least one digit and no leading zero; its inverse is the next rows |
| `Text.AllDigits` | java/steps/yaks-openapi/src/main/java/org/citrusframework/yaks/openapi/OpenApiClientSteps.java:205 | the whole key matches `[0-9]+`: non-empty and only ASCII digits |
| `Text.DigitsValue` | java/steps/yaks-openapi/src/main/java/org/citrusframework/yaks/openapi/OpenApiClientSteps.java:206 | `Integer.parseInt` of a digit string, without overflow; inverse of `Digits` by the rows around it |
| `Text.DigitsParseRoundTrip` | java/steps/yaks-openapi/src/main/java/org/citrusframework/yaks/openapi/OpenApiClientSteps.java:205-206 | a digit string without leading zeros parses to a number whose decimal string is that string again |
| `Text.DigitsValueLeading` | java/steps/yaks-openapi/src/main/java/org/citrusframework/yaks/openapi/OpenApiClientSteps.java:206 | a digit string whose first digit is not zero parses to a positive number |
| `Text.DecimalString` | java/steps/yaks-openapi/src/main/java/org/citrusframework/yaks/openapi/OpenApiClientSteps.java:106 | `String.valueOf`: digits that parse back to a non-negative number; a minus sign before the digits of a negative one |
| `OpenApiClient.OpenApiClientSteps.ReceiveResponse` | java/steps/yaks-openapi/src/main/java/org/citrusframework/yaks/openapi/OpenApiClientSteps.java:176-210 | fails with no change when no operation is stored (the null dereference); otherwise appends the definition, content-type and status expectations |
| `OpenApiClient.OpenApiClientSteps.VerifyResponseByStatus` | java/steps/yaks-openapi/src/main/java/org/citrusframework/yaks/openapi/OpenApiClientSteps.java:104-107 | verifies the response keyed by the number's decimal string |
| `OpenApiClient.OpenApiClientSteps.VerifyResponseByName` | java/steps/yaks-openapi/src/main/java/org/citrusframework/yaks/openapi/OpenApiClientSteps.java:109-112 | verifies the response keyed by the given name |
| `OpenApiClient.OpenApiClientSteps.Before` | java/steps/yaks-openapi/src/main/java/org/citrusframework/yaks/openapi/OpenApiClientSteps.java:66-76 | a fresh client whose only call sets the stored timeout; no operation stored |
| `OpenApiClient.OpenApiClientSteps.ConfigureTimeout` | java/steps/yaks-openapi/src/main/java/org/citrusframework/yaks/openapi/OpenApiClientSteps.java:78-82 | stores the timeout and forwards it unchanged |
| `OpenApiClient.OpenApiClientSteps.ConfigureForkMode` | java/steps/yaks-openapi/src/main/java/org/citrusframework/yaks/openapi/OpenApiClientSteps.java:84-87 | forwards the mode unchanged |
| `OpenApiClient.OpenApiClientSteps.constructor` | java/steps/yaks-openapi/src/main/java/org/citrusframework/yaks/openapi/OpenApiClientSteps.java:62-64 | no operation; the timeout is the configured default |
| `HttpServer.Dispatch` | java/yaks-testing-http/src/main/java/dev/yaks/testing/http/HttpServerSteps.java:198-216 | each method selects its own receive; a missing method selects POST |
| `HttpServer.HasText` | java/yaks-testing-http/src/main/java/dev/yaks/testing/http/HttpServerSteps.java:152-157 | `StringUtils.hasText`: text is present and not empty, and a string of whitespace only has none |
| `HttpServer.IsWhitespace` | java/yaks-testing-http/src/main/java/dev/yaks/testing/http/HttpServerSteps.java:152-157 | the characters `Character.isWhitespace` accepts, which `hasText` looks past |
| `HttpServer.PutAll` | java/yaks-testing-http/src/main/java/dev/yaks/testing/http/HttpServerSteps.java:86-88 | the map after `put` of every table row in order; its properties are the three rows that follow |
| `HttpServer.PutAllKeys` | java/yaks-testing-http/src/main/java/dev/yaks/testing/http/HttpServerSteps.java:85-89 | adding a table adds exactly the keys of its rows to those already there |
| `HttpServer.PutAllLastRowWins` | java/yaks-testing-http/src/main/java/dev/yaks/testing/http/HttpServerSteps.java:96-100 | an existing name is replaced; a key gets the value of the last row naming it |
| `HttpServer.PutAllOtherKeys` | java/yaks-testing-http/src/main/java/dev/yaks/testing/http/HttpServerSteps.java:107-111 | a key no row names keeps its value, or stays absent |
| `HttpServer.SetHeaders` | java/yaks-testing-http/src/main/java/dev/yaks/testing/http/HttpServerSteps.java:161-163 | the message gets every collected header with its collected value and keeps its other headers |
| `HttpServer.HttpServerSteps.constructor` | java/yaks-testing-http/src/main/java/dev/yaks/testing/http/HttpServerSteps.java:39-50 | empty maps, no bodies, no server, nothing sent to the runner |
| `HttpServer.HttpServerSteps.Before` | java/yaks-testing-http/src/main/java/dev/yaks/testing/http/HttpServerSteps.java:52-69 | the only HTTP-server bean when none was chosen and there is exactly one, else a newly built server; empty maps, no bodies, fresh messages |
| `HttpServer.HttpServerSteps.SetServer` | java/yaks-testing-http/src/main/java/dev/yaks/testing/http/HttpServerSteps.java:71-78 | an unknown id or a bean that is not an HTTP server fails and changes nothing; otherwise that bean becomes the server |
| `HttpServer.HttpServerSteps.AddRequestHeader` | java/yaks-testing-http/src/main/java/dev/yaks/testing/http/HttpServerSteps.java:80-83 | puts the header, replacing a previous value of that name |
| `HttpServer.HttpServerSteps.AddRequestHeaders` | java/yaks-testing-http/src/main/java/dev/yaks/testing/http/HttpServerSteps.java:85-89 | puts every row of the table, in order; nothing else changes |
| `HttpServer.HttpServerSteps.AddResponseHeader` | java/yaks-testing-http/src/main/java/dev/yaks/testing/http/HttpServerSteps.java:91-94 | puts the header, replacing a previous value of that name |
| `HttpServer.HttpServerSteps.AddResponseHeaders` | java/yaks-testing-http/src/main/java/dev/yaks/testing/http/HttpServerSteps.java:96-100 | puts every row of the table, in order; nothing else changes |
| `HttpServer.HttpServerSteps.AddBodyValidationExpression` | java/yaks-testing-http/src/main/java/dev/yaks/testing/http/HttpServerSteps.java:102-105 | puts the expression, replacing a previous one of that name |
| `HttpServer.HttpServerSteps.AddBodyValidationExpressions` | java/yaks-testing-http/src/main/java/dev/yaks/testing/http/HttpServerSteps.java:107-111 | puts every row of the table, in order; nothing else changes |
| `HttpServer.HttpServerSteps.SetResponseBody` | java/yaks-testing-http/src/main/java/dev/yaks/testing/http/HttpServerSteps.java:113-121 | stores the response body; nothing else changes |
| `HttpServer.HttpServerSteps.SetRequestBody` | java/yaks-testing-http/src/main/java/dev/yaks/testing/http/HttpServerSteps.java:123-131 | stores the expected request body; nothing else changes |
| `HttpServer.HttpServerSteps.ReceiveServerRequestFull` | java/yaks-testing-http/src/main/java/dev/yaks/testing/http/HttpServerSteps.java:133-136 | receives the parsed message; the collected body and headers stay |
| `HttpServer.HttpServerSteps.SendServerResponseFull` | java/yaks-testing-http/src/main/java/dev/yaks/testing/http/HttpServerSteps.java:138-141 | sends the parsed message with its own status |
| `HttpServer.HttpServerSteps.ReceiveServerRequestMultilineBody` | java/yaks-testing-http/src/main/java/dev/yaks/testing/http/HttpServerSteps.java:143-146 | a receive without a path: path and context path stay as they were; method, payload, headers and status as for a receive with a path; one receive handed over, then no body, headers or expressions |
| `HttpServer.HttpServerSteps.ReceiveServerRequest` | java/yaks-testing-http/src/main/java/dev/yaks/testing/http/HttpServerSteps.java:148-169 | method set; path and context path set only when the path has text; payload set only when the body has text; every collected header set; one receive handed over; afterwards no body, no headers, no expressions |
| `HttpServer.HttpServerSteps.SendServerResponse` | java/yaks-testing-http/src/main/java/dev/yaks/testing/http/HttpServerSteps.java:171-187 | an unknown status fails with no change; otherwise status set, payload set only when the body has text, headers set, method, path and context path kept, one send handed over, then no body and no headers |
| `HttpServer.HttpServerSteps.ReceiveMessage` | java/yaks-testing-http/src/main/java/dev/yaks/testing/http/HttpServerSteps.java:193-225 | one receive of the message, dispatched on its method and validated with all collected expressions, which are then emptied |
| `HttpServer.HttpServerSteps.SendMessage` | java/yaks-testing-http/src/main/java/dev/yaks/testing/http/HttpServerSteps.java:231-235 | one send of the message with its own status |
| `VfsGen.Base` | cmd/util/vfs-gen/main.go:141 | the base name is never empty and holds a slash only when it is `/` |
| `VfsGen.BaseOfChild` | cmd/util/vfs-gen/main.go:140-144 | the base name of `dir/name` is `name` for a name without a slash |
| `VfsGen.NamedFilesFilter` | cmd/util/vfs-gen/main.go:134-148 | never skips a directory; skips a file exactly when its base name is one of the names |
| `VfsGen.MakefileSkippedAnywhere` | cmd/util/vfs-gen/main.go:80 | a `Makefile` in any directory has a base name on the generator's list |
| `VfsGen.IgnoreParentDirFilter` | cmd/util/vfs-gen/main.go:150-160 | skips exactly when some given string is a prefix of the path; with none given it skips nothing |
| `VfsGen.HasPrefix` | cmd/util/vfs-gen/main.go:153 | `strings.HasPrefix`: the prefix is no longer than the string and equals its start |
| `VfsGen.BundlePrefixSkipsSibling` | cmd/util/vfs-gen/main.go:81 | the `/bundle` entry also matches `/bundlex`, because the match is a plain string prefix |
| `VfsGen.ExclusionFilter` | cmd/util/vfs-gen/main.go:82-89 | skips exactly when some exclusion is a string prefix of the path |
| `VfsGen.NormalizeExclusion` | cmd/util/vfs-gen/main.go:176-178 | the result starts with `/`; it is the input exactly when the input already did, and `/` + input otherwise |
| `VfsGen.ExclusionOf` | cmd/util/vfs-gen/main.go:168-182 | one walked entry adds at most one exclusion, the normalised relative path, exactly when it is a directory holding `.vfsignore` with a computable relative path; a failed lookup or relative path is fatal |
| `VfsGen.Exclusions` | cmd/util/vfs-gen/main.go:162-191 | every collected exclusion starts with `/`; there are no more of them than walked entries |
| `VfsGen.ExclusionsExactly` | cmd/util/vfs-gen/main.go:165-183 | the exclusions are exactly the normalised relative paths of the directories holding a `.vfsignore` |
| `VfsGen.ExclusionsFatalPrefix` | cmd/util/vfs-gen/main.go:172-186 | once an entry's lookup or relative path fails fatally, the whole computation is fatal |
| `VfsGen.CalcExclusions` | cmd/util/vfs-gen/main.go:162-191 | the walk loop yields the exclusion list, or the fatal stop |
| `VfsGen.WrapFileInfo` | cmd/util/vfs-gen/main.go:230-236 | the modification time is the zero time; name, size and kind are those of the wrapped info |
| `VfsGen.WrappedStat` | cmd/util/vfs-gen/main.go:222-228 | errors pass through unchanged; a file info comes back with only its modification time zeroed |

## Left out

- The schema helper and the test-data generator (`OasModelHelper`, `OpenApiTestDataGenerator`) are not part of this model. They appear as the functions of `OasModel.Helpers`. No schema traversal, reference resolution or cycle guard is modelled.
- Generated values are a fixed function of the schema. The real generator draws random values, so two calls with one schema may differ.
- Parameter names and generated values are assumed to be plain text. A name with regular-expression meta-characters changes the `{name}` pattern in Java. A `$` or `\` in a generated value has special meaning in a replacement string. Only the `\$` escape of the variable case is modelled, by its effect: the literal text `${name}`.
- Placeholder removal: a path can still hold a `{name}` after substitution. For example, parameter `ab` with value `b` turns `{a{ab}}` into `{ab}`. The model states what `replaceAll` does and does not claim that no placeholder is left.
- `ExpectedStatus`, `DigitsValue`: `Integer.parseInt` overflow is not modelled. A digit key above 2147483647, given to the verify-by-name step, parses to its unbounded value here, where Java throws `NumberFormatException`.
- `VerifyResponseByStatus`, `ExpectedStatusOfNumber`: the number is an unbounded integer, where the Java step takes an `int`. Within the `int` range the statements are exact, and no overflow arises there, because the decimal string of an `int` parses back to it.
- `Upper` follows `String.toUpperCase` for ASCII letters only.
- The transport and validation done by the HTTP client steps, the Citrus runner and the network are not modelled. Only the calls are recorded. The annotation injection and the `before(scenario)` call on the new client steps are not recorded.
- A step run before the scenario's `before` hook is not modelled. In Java the client steps, the request and the response are still null then. `HttpServer.HttpServerSteps.constructor` starts both messages as fresh messages.
- The runner is assumed to apply the receive/send builder at once. The action records a snapshot of the message. Java hands over the same `request` object that later steps keep changing, so that aliasing is not captured.
- Data tables are given as rows. A later row with the same key wins. Whether `DataTable.asMap` rejects duplicate keys is not modelled.
- `HttpMethod.valueOf` on a name outside the eight methods cannot occur: the step patterns only admit the eight. The method is an eight-valued datatype, so the dispatch's final `else` branch has no input.
- `HttpStatus.valueOf` is the set of known statuses, passed in. `HttpMessage.fromRequestData` and `fromResponseData` are the parsed messages, passed in. A null `Integer` status is not modelled.
- The multiline body steps (`setResponseBodyMultiline`, `setRequestBodyMultiline`) only delegate to `SetResponseBody` and `SetRequestBody`.
- Not modelled from `main`: flag parsing, `checkDir`, `vfsgen.Generate`, the licence header rewrite, file reads and writes. Also not modelled: the `.go` extension filter and the `filter.Skip` composition, both from an external library. `modTimeFS.Open` only passes errors through and wraps the file.
- `filepath.Walk`, `filepath.Rel` and `os.Stat` are given as the visited entries. The walks of several directory names are given one after the other. When a directory cannot be read, `filepath.Walk` still calls the callback with that directory's info and the error; the callback ignores the error and handles the directory as usual, and its children are simply not visited, so they are absent from the given entries. When `lstat` of an entry fails, `info` is nil and the callback would panic; that case is not modelled.
- `VfsGen.Base` follows `filepath.Base` with `/` as the only separator and no volume names.
- `Foo.java` (a data holder) and `DeleteServiceAction.java` (one delegated client call) hold no logic.
- Three behaviours of the code may be unexpected. The model keeps them as written:
  - An operation id that matches nothing is silently ignored and the previous operation stays stored. It is not a fatal error.
  - Verifying before any operation was stored dereferences null. This is modelled as a failed outcome.
  - A response key that is not numeric expects 200 even when a definition for that name exists.

=== FILE: http_server.dfy ===
/** The HTTP server steps: a scenario collects expected request headers, body and
    body-validation expressions, and response headers and body, in the step
    object; a receive or send step hands a message to the test runner and clears
    what it consumed. The runner is recorded as the sequence of server actions it
    was given. */
module HttpServer {
  import opened Wrappers

  datatype HttpMethod = GET | HEAD | POST | PUT | PATCH | DELETE | OPTIONS | TRACE

  /** The parts of an HTTP message the steps set; absent parts are `None`. */
  datatype Message = Message(
    httpMethod: Option<HttpMethod>,
    path: Option<string>,
    contextPath: Option<string>,
    payload: Option<string>,
    headers: map<string, string>,
    status: Option<int>)

  const FreshMessage := Message(None, None, None, None, map[], None)

  /** The server a step talks to: a bean of the application context, or a
      default server the step built itself. */
  datatype Server = Bean(id: string) | Built

  /** The application context: every bean id, and the ids of beans that are HTTP servers. */
  datatype AppContext = AppContext(beans: set<string>, httpServers: set<string>)

  /** What the test runner is asked to do. */
  datatype ServerAction =
    | Receive(server: Option<Server>, httpMethod: HttpMethod, request: Message, validations: map<string, string>)
    | Send(server: Option<Server>, status: Option<int>, response: Message)

  datatype StepError = UnknownServer(id: string) | NotAnHttpServer(id: string) | UnknownStatus(status: int)

  /** `Character.isWhitespace`. */
  predicate IsWhitespace(c: char)
  {
    c == ' ' || ('\t' <= c <= '\r') || ('\U{001C}' <= c <= '\U{001F}')
    || c == '\U{1680}' || ('\U{2000}' <= c <= '\U{2006}') || ('\U{2008}' <= c <= '\U{200A}')
    || c == '\U{2028}' || c == '\U{2029}' || c == '\U{205F}' || c == '\U{3000}'
  }

  /** `StringUtils.hasText`: not null and holding a character that is not whitespace. */
  predicate HasText(s: Option<string>)
    ensures HasText(s) ==> s.Some? && |s.value| > 0
    ensures s.Some? && (forall i :: 0 <= i < |s.value| ==> IsWhitespace(s.value[i])) ==> !HasText(s)
  {
    s.Some? && exists i :: 0 <= i < |s.value| && !IsWhitespace(s.value[i])
  }

  /** The receive action chosen for a request method: each method other than POST
      has its own, and POST and a missing method both receive a POST. */
  function Dispatch(httpMethod: Option<HttpMethod>): (r: HttpMethod)
    ensures httpMethod.Some? ==> r == httpMethod.value
    ensures httpMethod.None? ==> r == POST
  {
    match httpMethod
    case None => POST
    case Some(m) =>
      match m
      case POST => POST
      case GET => GET
      case PUT => PUT
      case DELETE => DELETE
      case HEAD => HEAD
      case TRACE => TRACE
      case PATCH => PATCH
      case OPTIONS => OPTIONS
  }

  /** The map after `put(k, v)` of every pair of a table, in table order. */
  function PutAll(m: map<string, string>, pairs: seq<(string, string)>): map<string, string>
  {
    if pairs == [] then m
    else
      var last := pairs[|pairs| - 1];
      PutAll(m, pairs[..|pairs| - 1])[last.0 := last.1]
  }

  /** Adding a table adds exactly the keys of its rows. */
  lemma {:induction false} PutAllKeys(m: map<string, string>, pairs: seq<(string, string)>)
    ensures PutAll(m, pairs).Keys == m.Keys + set i | 0 <= i < |pairs| :: pairs[i].0
  {
    if pairs != [] {
      var init := pairs[..|pairs| - 1];
      PutAllKeys(m, init);
      var keys := set i | 0 <= i < |pairs| :: pairs[i].0;
      var initKeys := set i | 0 <= i < |init| :: init[i].0;
      forall k | k in keys ensures k in initKeys + {pairs[|pairs| - 1].0} {
        var i :| 0 <= i < |pairs| && pairs[i].0 == k;
        if i < |init| { assert init[i].0 == k; }
      }
      forall k | k in initKeys ensures k in keys {
        var i :| 0 <= i < |init| && init[i].0 == k;
        assert pairs[i].0 == k;
      }
      assert keys == initKeys + {pairs[|pairs| - 1].0};
    }
  }

  /** A key takes the value of the last row of the table that names it. */
  lemma {:induction false} PutAllLastRowWins(m: map<string, string>, pairs: seq<(string, string)>, i: nat)
    requires i < |pairs|
    requires forall j :: i < j < |pairs| ==> pairs[j].0 != pairs[i].0
    ensures pairs[i].0 in PutAll(m, pairs) && PutAll(m, pairs)[pairs[i].0] == pairs[i].1
  {
    var init := pairs[..|pairs| - 1];
    if i < |init| {
      assert init[i] == pairs[i];
      forall j | i < j < |init| ensures init[j].0 != init[i].0 {
        assert init[j] == pairs[j];
      }
      PutAllLastRowWins(m, init, i);
    }
  }

  /** A key no row of the table names keeps its old value, or stays absent. */
  lemma {:induction false} PutAllOtherKeys(m: map<string, string>, pairs: seq<(string, string)>, k: string)
    requires forall i :: 0 <= i < |pairs| ==> pairs[i].0 != k
    ensures k in PutAll(m, pairs) <==> k in m
    ensures k in m ==> PutAll(m, pairs)[k] == m[k]
  {
    if pairs != [] {
      var init := pairs[..|pairs| - 1];
      forall i | 0 <= i < |init| ensures init[i].0 != k {
        assert init[i] == pairs[i];
      }
      PutAllOtherKeys(m, init, k);
    }
  }

  /** The loop that sets each collected header on a message: afterwards the
      message has every collected header, with the collected value, and keeps its
      other headers. */
  method SetHeaders(headers: map<string, string>, collected: map<string, string>) returns (r: map<string, string>)
    ensures r.Keys == headers.Keys + collected.Keys
    ensures forall k :: k in collected ==> r[k] == collected[k]
    ensures forall k :: k in headers && k !in collected ==> r[k] == headers[k]
  {
    r := headers;
    var pending := collected.Keys;
    while pending != {}
      invariant pending <= collected.Keys
      invariant r.Keys == headers.Keys + (collected.Keys - pending)
      invariant forall k :: k in collected && k !in pending ==> r[k] == collected[k]
      invariant forall k :: k in headers && k !in collected ==> r[k] == headers[k]
      decreases pending
    {
      var k :| k in pending;
      r := r[k := collected[k]];
      pending := pending - {k};
    }
  }

  /** The step object of one scenario. */
  class HttpServerSteps {
    var httpServer: Option<Server>
    var request: Message
    var response: Message
    var requestHeaders: map<string, string>
    var responseHeaders: map<string, string>
    var bodyValidationExpressions: map<string, string>
    var requestBody: Option<string>
    var responseBody: Option<string>
    /** Everything handed to the test runner so far. */
    var actions: seq<ServerAction>

    constructor ()
      ensures httpServer == None && requestBody == None && responseBody == None
      ensures requestHeaders == map[] && responseHeaders == map[] && bodyValidationExpressions == map[]
      ensures request == FreshMessage && response == FreshMessage && actions == []
    {
      httpServer := None;
      request, response := FreshMessage, FreshMessage;
      requestHeaders, responseHeaders, bodyValidationExpressions := map[], map[], map[];
      requestBody, responseBody := None, None;
      actions := [];
    }

    /** Scenario start: the only HTTP server bean when there is exactly one and
      none was chosen yet, a newly built server otherwise; everything collected is
      dropped and both messages start afresh. */
    method Before(ctx: AppContext)
      modifies this
      ensures if old(httpServer).None? && |ctx.httpServers| == 1
        then httpServer.Some? && httpServer.value.Bean? && ctx.httpServers == {httpServer.value.id}
        else httpServer == Some(Built)
      ensures requestHeaders == map[] && responseHeaders == map[] && bodyValidationExpressions == map[]
      ensures request == FreshMessage && response == FreshMessage
      ensures requestBody == None && responseBody == None
      ensures actions == old(actions)
    {
      if httpServer.None? && |ctx.httpServers| == 1 {
        var id :| id in ctx.httpServers;
        assert ctx.httpServers == {id} by {
          assert |ctx.httpServers - {id}| == 0;
        }
        httpServer := Some(Bean(id));
      } else {
        httpServer := Some(Built);
      }
      requestHeaders := map[];
      responseHeaders := map[];
      request := FreshMessage;
      response := FreshMessage;
      requestBody := None;
      responseBody := None;
      bodyValidationExpressions := map[];
    }

    /** Switches to the HTTP server bean `id`; an id that is not a bean, or names
      a bean that is not an HTTP server, fails and changes nothing. */
    method SetServer(ctx: AppContext, id: string) returns (outcome: Outcome<StepError>)
      modifies this`httpServer
      ensures id !in ctx.beans ==> outcome == Fail(UnknownServer(id)) && httpServer == old(httpServer)
      ensures id in ctx.beans && id !in ctx.httpServers ==> outcome == Fail(NotAnHttpServer(id)) && httpServer == old(httpServer)
      ensures id in ctx.beans && id in ctx.httpServers ==> outcome == Pass && httpServer == Some(Bean(id))
    {
      if id !in ctx.beans {
        return Fail(UnknownServer(id));
      }
      if id !in ctx.httpServers {
        return Fail(NotAnHttpServer(id));
      }
      httpServer := Some(Bean(id));
      outcome := Pass;
    }

    method AddRequestHeader(name: string, value: string)
      modifies this`requestHeaders
      ensures requestHeaders == old(requestHeaders)[name := value]
    {
      requestHeaders := requestHeaders[name := value];
    }

    method AddRequestHeaders(table: seq<(string, string)>)
      modifies this`requestHeaders
      ensures requestHeaders == PutAll(old(requestHeaders), table)
    {
      var i := 0;
      while i < |table|
        invariant 0 <= i <= |table|
        invariant requestHeaders == PutAll(old(requestHeaders), table[..i])
      {
        assert table[..i + 1][..i] == table[..i];
        AddRequestHeader(table[i].0, table[i].1);
        i := i + 1;
      }
      assert table[..i] == table;
    }

    method AddResponseHeader(name: string, value: string)
      modifies this`responseHeaders
      ensures responseHeaders == old(responseHeaders)[name := value]
    {
      responseHeaders := responseHeaders[name := value];
    }

    method AddResponseHeaders(table: seq<(string, string)>)
      modifies this`responseHeaders
      ensures responseHeaders == PutAll(old(responseHeaders), table)
    {
      var i := 0;
      while i < |table|
        invariant 0 <= i <= |table|
        invariant responseHeaders == PutAll(old(responseHeaders), table[..i])
      {
        assert table[..i + 1][..i] == table[..i];
        AddResponseHeader(table[i].0, table[i].1);
        i := i + 1;
      }
      assert table[..i] == table;
    }

    method AddBodyValidationExpression(name: string, value: string)
      modifies this`bodyValidationExpressions
      ensures bodyValidationExpressions == old(bodyValidationExpressions)[name := value]
    {
      bodyValidationExpressions := bodyValidationExpressions[name := value];
    }

    method AddBodyValidationExpressions(table: seq<(string, string)>)
      modifies this`bodyValidationExpressions
      ensures bodyValidationExpressions == PutAll(old(bodyValidationExpressions), table)
    {
      var i := 0;
      while i < |table|
        invariant 0 <= i <= |table|
        invariant bodyValidationExpressions == PutAll(old(bodyValidationExpressions), table[..i])
      {
        assert table[..i + 1][..i] == table[..i];
        AddBodyValidationExpression(table[i].0, table[i].1);
        i := i + 1;
      }
      assert table[..i] == table;
    }

    method SetResponseBody(body: string)
      modifies this`responseBody
      ensures responseBody == Some(body)
    {
      responseBody := Some(body);
    }

    method SetRequestBody(body: string)
      modifies this`requestBody
      ensures requestBody == Some(body)
    {
      requestBody := Some(body);
    }

    /** Receives a request with `method` at `path` (`None` for the step without a
      path). The request message keeps what earlier receives put into it and gets
      the method, the path when it has text, the collected body when it has text
      and every collected header; afterwards the collected body, headers and
      validation expressions are gone. */
    method ReceiveServerRequest(httpMethod: HttpMethod, path: Option<string>)
      modifies this`request, this`actions, this`bodyValidationExpressions, this`requestBody, this`requestHeaders
      ensures request.httpMethod == Some(httpMethod)
      ensures request.path == (if HasText(path) then path else old(request).path)
      ensures request.contextPath == (if HasText(path) then path else old(request).contextPath)
      ensures request.payload == (if HasText(old(requestBody)) then old(requestBody) else old(request).payload)
      ensures request.headers.Keys == old(request).headers.Keys + old(requestHeaders).Keys
      ensures forall k :: k in old(requestHeaders) ==> request.headers[k] == old(requestHeaders)[k]
      ensures forall k :: k in old(request).headers && k !in old(requestHeaders) ==>
        request.headers[k] == old(request).headers[k]
      ensures request.status == old(request).status
      ensures actions == old(actions) + [Receive(httpServer, httpMethod, request, old(bodyValidationExpressions))]
      ensures bodyValidationExpressions == map[] && requestBody == None && requestHeaders == map[]
    {
      request := request.(httpMethod := Some(httpMethod));
      if HasText(path) {
        request := request.(path := path, contextPath := path);
      }
      if HasText(requestBody) {
        request := request.(payload := requestBody);
      }
      var headers := SetHeaders(request.headers, requestHeaders);
      request := request.(headers := headers);
      ReceiveMessage(request);
      requestBody := None;
      requestHeaders := map[];
    }

    method ReceiveServerRequestMultilineBody(httpMethod: HttpMethod)
      modifies this`request, this`actions, this`bodyValidationExpressions, this`requestBody, this`requestHeaders
      ensures request.httpMethod == Some(httpMethod)
      ensures request.path == old(request).path && request.contextPath == old(request).contextPath
      ensures request.payload == (if HasText(old(requestBody)) then old(requestBody) else old(request).payload)
      ensures request.headers.Keys == old(request).headers.Keys + old(requestHeaders).Keys
      ensures forall k :: k in old(requestHeaders) ==> request.headers[k] == old(requestHeaders)[k]
      ensures forall k :: k in old(request).headers && k !in old(requestHeaders) ==>
        request.headers[k] == old(request).headers[k]
      ensures request.status == old(request).status
      ensures actions == old(actions) + [Receive(httpServer, httpMethod, request, old(bodyValidationExpressions))]
      ensures bodyValidationExpressions == map[] && requestBody == None && requestHeaders == map[]
    {
      ReceiveServerRequest(httpMethod, None);
    }

    /** Receives a request message parsed from the step's request data. */
    method ReceiveServerRequestFull(message: Message)
      modifies this`actions, this`bodyValidationExpressions
      ensures actions == old(actions) + [Receive(httpServer, Dispatch(message.httpMethod), message, old(bodyValidationExpressions))]
      ensures bodyValidationExpressions == map[]
    {
      ReceiveMessage(message);
    }

    /** Sends a response with `status`. A status that is not a known HTTP status
      fails before anything changes. Otherwise the response message gets the
      status, the collected body when it has text and every collected header;
      afterwards the collected body and headers are gone. */
    method SendServerResponse(status: int, knownStatuses: set<int>) returns (outcome: Outcome<StepError>)
      modifies this`response, this`actions, this`responseBody, this`responseHeaders
      ensures status !in knownStatuses ==>
        && outcome == Fail(UnknownStatus(status))
        && response == old(response) && actions == old(actions)
        && responseBody == old(responseBody) && responseHeaders == old(responseHeaders)
      ensures status in knownStatuses ==>
        && outcome == Pass
        && response.status == Some(status)
        && response.payload == (if HasText(old(responseBody)) then old(responseBody) else old(response).payload)
        && response.headers.Keys == old(response).headers.Keys + old(responseHeaders).Keys
        && (forall k :: k in old(responseHeaders) ==> response.headers[k] == old(responseHeaders)[k])
        && (forall k :: k in old(response).headers && k !in old(responseHeaders) ==>
              response.headers[k] == old(response).headers[k])
        && response.httpMethod == old(response).httpMethod && response.path == old(response).path
        && response.contextPath == old(response).contextPath
        && actions == old(actions) + [Send(httpServer, Some(status), response)]
        && responseBody == None && responseHeaders == map[]
    {
      if status !in knownStatuses {
        return Fail(UnknownStatus(status));
      }
      response := response.(status := Some(status));
      if HasText(responseBody) {
        response := response.(payload := responseBody);
      }
      var headers := SetHeaders(response.headers, responseHeaders);
      response := response.(headers := headers);
      SendMessage(response);
      responseBody := None;
      responseHeaders := map[];
      outcome := Pass;
    }

    /** Sends a response message parsed from the step's response data. */
    method SendServerResponseFull(message: Message)
      modifies this`actions
      ensures actions == old(actions) + [Send(httpServer, message.status, message)]
    {
      SendMessage(message);
    }

    /** Hands the runner a receive of `message`, dispatched on its method and
      validated with every collected expression, which are then dropped. */
    method ReceiveMessage(message: Message)
      modifies this`actions, this`bodyValidationExpressions
      ensures actions == old(actions) + [Receive(httpServer, Dispatch(message.httpMethod), message, old(bodyValidationExpressions))]
      ensures bodyValidationExpressions == map[]
    {
      var httpMethod := Dispatch(message.httpMethod);
      actions := actions + [Receive(httpServer, httpMethod, message, bodyValidationExpressions)];
      bodyValidationExpressions := map[];
    }

    method SendMessage(message: Message)
      modifies this`actions
      ensures actions == old(actions) + [Send(httpServer, message.status, message)]
    {
      actions := actions + [Send(httpServer, message.status, message)];
    }
  }
}

=== FILE: oas_model.dfy ===
/** The slice of an OpenAPI document that the client steps read, and the helper
    routines they call but whose code is not part of this model. */
module OasModel {
  import opened Wrappers

  /** Handle of an OpenAPI schema node. Its shape (type, format, properties,
      references) is seen only through the `Helpers` below. */
  datatype Schema = Schema(id: nat)

  /** Handle of a response definition; its headers and body schema are seen only
      through the `Helpers`. */
  datatype Response = Response(id: nat)

  /** `OasParameter`: `location` is the `in` field and, like `required`, may be null. */
  datatype Parameter = Parameter(name: string, location: Option<string>, required: Option<bool>, schema: Schema)

  /** `OasResponses`: status-keyed response items and the `default` response. */
  datatype Responses = Responses(items: map<string, Response>, default_: Option<Response>)

  /** `OasOperation`: every field may be null in the document. */
  datatype Operation = Operation(operationId: Option<string>, parameters: Option<seq<Parameter>>, responses: Option<Responses>)

  /** A path item: its path template and its operations, keyed by lower-case
      HTTP method, in the order the document model lists them. */
  datatype PathItem = PathItem(path: string, operations: seq<(string, Operation)>)

  datatype Document = Document(paths: seq<PathItem>)

  /** The schema helper and the test-data generator, as functions of their
      arguments. The generator draws random values; here every call with the same
      schema yields the same expression. */
  datatype Helpers = Helpers(
    // model helper
    requestBodySchema: (Document, Operation) -> Option<Schema>,
    requestContentType: Operation -> Option<string>,
    responseContentType: (Document, Operation) -> Option<string>,
    requiredHeaders: Response -> Option<seq<(string, Schema)>>,
    responseSchema: Response -> Option<Schema>,
    isReferenceType: Schema -> bool,
    isObjectType: Schema -> bool,
    isArrayType: Schema -> bool,
    // test-data generator
    headerValue: Schema -> string,          // random value expression resolved against the document's definitions
    randomValue: Schema -> string,          // random value expression of the schema alone
    outboundPayload: Schema -> string,
    inboundPayload: Schema -> string,
    validationExpression: Schema -> string
  )
  {
    /** The schema is a reference, object or array type: a dictionary applies to its payload. */
    predicate IsStructured(s: Schema)
    {
      isReferenceType(s) || isObjectType(s) || isArrayType(s)
    }
  }
}

=== FILE: openapi_client.dfy ===
/** The OpenAPI client steps: invoke an operation of the loaded document by its
    operation id, generating the request from the operation's parameters and body
    schema, and describe the expected response for a status or response name.
    Every step talks to the HTTP client steps, recorded here as the sequence of
    calls they receive. */
module OpenApiClient {
  import opened Wrappers
  import opened Text
  import opened OasModel

  /** One call into the HTTP client steps. */
  datatype ClientCall =
    | ConfigureTimeout(timeout: int)
    | ConfigureForkMode(mode: string)
    | AddRequestHeader(name: string, value: string)
    | AddRequestQueryParam(name: string, value: string)
    | SetRequestBody(body: string)
    | SetOutboundDictionary
    | SetUrl(url: string)
    | SendClientRequest(httpMethod: string, path: string)
    | AddResponseHeader(name: string, value: string)
    | SetResponseBody(body: string)
    | SetInboundDictionary
    | ReceiveClientResponse(status: int)

  /** A verification step ran before any operation was stored: the Java step
      dereferences a null operation there. */
  datatype StepError = NoOperation

  const ContentTypeHeader := "Content-Type"
  const StatusOk := 200

  /* ---------------- locating an operation ---------------- */

  predicate HasId(entry: (string, Operation), operationId: string)
  {
    entry.1.operationId == Some(operationId)
  }

  /** The first entry of one path item's operation map carrying the operation id. */
  function FirstMatch(ops: seq<(string, Operation)>, operationId: string): (r: Option<nat>)
    ensures r.Some? ==> r.value < |ops| && HasId(ops[r.value], operationId)
    ensures r.Some? ==> forall j :: 0 <= j < r.value ==> !HasId(ops[j], operationId)
    ensures r.None? ==> forall j :: 0 <= j < |ops| ==> !HasId(ops[j], operationId)
  {
    if ops == [] then None
    else if HasId(ops[0], operationId) then Some(0)
    else match FirstMatch(ops[1..], operationId)
      case None => None
      case Some(j) => Some(j + 1)
  }

  /** Path item index and operation index of the first operation, in document
      order, whose operation id is `operationId`. */
  function Locate(paths: seq<PathItem>, operationId: string): (r: Option<(nat, nat)>)
    ensures r.Some? ==>
      r.value.0 < |paths| && r.value.1 < |paths[r.value.0].operations|
      && HasId(paths[r.value.0].operations[r.value.1], operationId)
      && FirstMatch(paths[r.value.0].operations, operationId) == Some(r.value.1)
    ensures r.Some? ==> forall i, j :: 0 <= i < r.value.0 && 0 <= j < |paths[i].operations| ==>
      !HasId(paths[i].operations[j], operationId)
    ensures r.None? <==> forall i, j :: 0 <= i < |paths| && 0 <= j < |paths[i].operations| ==>
      !HasId(paths[i].operations[j], operationId)
  {
    if paths == [] then None
    else match FirstMatch(paths[0].operations, operationId)
      case Some(j) => Some((0, j))
      case None =>
        match Locate(paths[1..], operationId)
        case None => None
        case Some(ij) => Some((ij.0 + 1, ij.1))
  }

  /** The path item scan stops at the first item holding a match. */
  lemma {:induction false} LocateScan(paths: seq<PathItem>, operationId: string, i: nat)
    requires i <= |paths|
    requires forall k :: 0 <= k < i ==> FirstMatch(paths[k].operations, operationId).None?
    ensures i < |paths| && FirstMatch(paths[i].operations, operationId).Some? ==>
      Locate(paths, operationId) == Some((i, FirstMatch(paths[i].operations, operationId).value))
    ensures i == |paths| ==> Locate(paths, operationId).None?
    decreases i
  {
    if i > 0 {
      LocateScan(paths[1..], operationId, i - 1);
    }
  }

  /* ---------------- building the request ---------------- */

  /** The parameter is declared in `location` and its `required` flag is set and true. */
  predicate RequiredIn(p: Parameter, location: string)
  {
    p.location == Some(location) && p.required == Some(true)
  }

  /** The client call a required header or query parameter turns into. */
  function ParamCall(p: Parameter, location: string, h: Helpers): (r: ClientCall)
    ensures location == "header" ==> r.AddRequestHeader? && r.name == p.name
    ensures location != "header" ==> r.AddRequestQueryParam? && r.name == p.name
  {
    if location == "header" then AddRequestHeader(p.name, h.headerValue(p.schema))
    else AddRequestQueryParam(p.name, h.randomValue(p.schema))
  }

  /** Calls for the required parameters declared in `location`, in declaration order. */
  function RequiredParamCalls(ps: seq<Parameter>, location: string, h: Helpers): (r: seq<ClientCall>)
    ensures |r| <= |ps|
  {
    if ps == [] then []
    else
      var p := ps[|ps| - 1];
      RequiredParamCalls(ps[..|ps| - 1], location, h)
      + (if RequiredIn(p, location) then [ParamCall(p, location, h)] else [])
  }

  /** A header (or query parameter) is added exactly for each parameter declared
      there whose `required` flag is present and true; optional parameters and
      parameters without a flag never are. */
  lemma {:induction false} RequiredParamCallsExactly(ps: seq<Parameter>, location: string, h: Helpers, c: ClientCall)
    ensures c in RequiredParamCalls(ps, location, h) <==>
      exists p :: p in ps && RequiredIn(p, location) && c == ParamCall(p, location, h)
  {
    if ps != [] {
      var init, p := ps[..|ps| - 1], ps[|ps| - 1];
      assert ps == init + [p];
      RequiredParamCallsExactly(init, location, h, c);
      if c in RequiredParamCalls(ps, location, h) && c !in RequiredParamCalls(init, location, h) {
        assert p in ps && RequiredIn(p, location) && c == ParamCall(p, location, h);
      }
    }
  }

  /** Every call `RequiredParamCalls` produces adds a header or a query parameter. */
  lemma {:induction false} RequiredParamCallsKind(ps: seq<Parameter>, location: string, h: Helpers)
    ensures forall c :: c in RequiredParamCalls(ps, location, h) ==>
      (if location == "header" then c.AddRequestHeader? else c.AddRequestQueryParam?)
  {
    if ps != [] {
      RequiredParamCallsKind(ps[..|ps| - 1], location, h);
    }
  }

  /** Body calls: the generated payload exactly when the operation has a request
      body schema, and the outbound dictionary only for a reference, object or
      array schema. */
  function BodyCalls(doc: Document, op: Operation, h: Helpers): (r: seq<ClientCall>)
    ensures (exists b :: SetRequestBody(b) in r) <==> h.requestBodySchema(doc, op).Some?
    ensures SetOutboundDictionary in r <==>
      h.requestBodySchema(doc, op).Some? && h.IsStructured(h.requestBodySchema(doc, op).value)
    ensures forall c :: c in r ==> c.SetRequestBody? || c.SetOutboundDictionary?
  {
    match h.requestBodySchema(doc, op)
    case None => []
    case Some(s) =>
      [SetRequestBody(h.outboundPayload(s))] + (if h.IsStructured(s) then [SetOutboundDictionary] else [])
  }

  /** The parameters declared in the path, in declaration order. */
  function PathParams(ps: seq<Parameter>): (r: seq<Parameter>)
    ensures forall p :: p in r <==> p in ps && p.location == Some("path")
    ensures |r| <= |ps|
  {
    if ps == [] then []
    else PathParams(ps[..|ps| - 1]) + (if ps[|ps| - 1].location == Some("path") then [ps[|ps| - 1]] else [])
  }

  function Placeholder(name: string): string
  {
    "{" + name + "}"
  }

  /** A reference to the test variable `name`, resolved later by the test context. */
  function VariableReference(name: string): string
  {
    "${" + name + "}"
  }

  /** What replaces `{name}`: a reference to an existing test variable of that
      name, else a generated value. */
  function PathValue(p: Parameter, vars: set<string>, h: Helpers): string
  {
    if p.name in vars then VariableReference(p.name) else h.randomValue(p.schema)
  }

  /** The path template after each path parameter, in order, had all its
      placeholders replaced. */
  function Substitute(path: string, pathParams: seq<Parameter>, vars: set<string>, h: Helpers): string
  {
    if pathParams == [] then path
    else
      var p := pathParams[|pathParams| - 1];
      ReplaceAll(Substitute(path, pathParams[..|pathParams| - 1], vars, h), Placeholder(p.name), PathValue(p, vars, h))
  }

  /** The path parameters of a declaration list split in two are those of the
      first part followed by those of the second: declaration order and repeated
      declarations are kept, and a single parameter is kept exactly when it is
      declared in the path. */
  lemma {:induction false} PathParamsConcat(a: seq<Parameter>, b: seq<Parameter>)
    ensures PathParams(a + b) == PathParams(a) + PathParams(b)
  {
    if b == [] {
      assert a + b == a;
    } else {
      assert (a + b)[..|a + b| - 1] == a + b[..|b| - 1];
      PathParamsConcat(a, b[..|b| - 1]);
    }
  }

  lemma PathParamsSingle(p: Parameter)
    ensures PathParams([p]) == if p.location == Some("path") then [p] else []
  {
    assert [p][..0] == [];
  }

  /** Substitution over a parameter list split in two is the substitution of the
      second part applied to the result of the first: the parameters act one after
      another in declaration order, so a generated value holding a later
      parameter's placeholder is itself substituted. */
  lemma {:induction false} SubstituteConcat(path: string, a: seq<Parameter>, b: seq<Parameter>, vars: set<string>, h: Helpers)
    ensures Substitute(path, a + b, vars, h) == Substitute(Substitute(path, a, vars, h), b, vars, h)
  {
    if b == [] {
      assert a + b == a;
    } else {
      assert (a + b)[..|a + b| - 1] == a + b[..|b| - 1];
      SubstituteConcat(path, a, b[..|b| - 1], vars, h);
    }
  }

  /** A template holding none of the parameters' placeholders is sent as it is. */
  lemma {:induction false} SubstituteWithoutPlaceholders(path: string, pathParams: seq<Parameter>, vars: set<string>, h: Helpers)
    requires forall p :: p in pathParams ==> !Occurs(path, Placeholder(p.name))
    ensures Substitute(path, pathParams, vars, h) == path
  {
    if pathParams != [] {
      var p := pathParams[|pathParams| - 1];
      SubstituteWithoutPlaceholders(path, pathParams[..|pathParams| - 1], vars, h);
      ReplaceAllNoOccurrence(path, Placeholder(p.name), PathValue(p, vars, h));
    }
  }

  /** One path parameter whose placeholder appears once: that occurrence becomes
      `${name}` when the test context has a variable of that name and the
      generated value otherwise, and the rest of the template is unchanged. */
  lemma SubstituteSingle(before: string, after: string, p: Parameter, vars: set<string>, h: Helpers)
    requires forall k: nat :: k < |before| ==> !MatchAt(before + Placeholder(p.name) + after, k, Placeholder(p.name))
    requires !Occurs(after, Placeholder(p.name))
    ensures Substitute(before + Placeholder(p.name) + after, [p], vars, h)
      == before + (if p.name in vars then VariableReference(p.name) else h.randomValue(p.schema)) + after
  {
    var ph := Placeholder(p.name);
    assert [p][..0] == [];
    ReplaceAllFirstOccurrence(before, ph, after, PathValue(p, vars, h));
    ReplaceAllNoOccurrence(after, ph, PathValue(p, vars, h));
  }

  /** `/pets/{id}` with a path parameter `id` that is not a test variable is
      sent as `/pets/` followed by the generated value. */
  lemma PetsExample(s: Schema, vars: set<string>, h: Helpers)
    requires "id" !in vars
    ensures Substitute("/pets/{id}", PathParams([Parameter("id", Some("path"), Some(true), s)]), vars, h)
      == "/pets/" + h.randomValue(s)
  {
    var p := Parameter("id", Some("path"), Some(true), s);
    assert PathParams([p]) == [p] by { assert [p][..0] == []; }
    forall k: nat | k < |"/pets/"| ensures !MatchAt("/pets/" + Placeholder("id") + "", k, Placeholder("id")) {
      assert ("/pets/" + Placeholder("id") + "")[k] != '{';
    }
    assert !Occurs("", Placeholder("id"));
    SubstituteSingle("/pets/", "", p, vars, h);
    assert "/pets/" + Placeholder("id") + "" == "/pets/{id}";
  }

  function ContentTypeCalls(op: Operation, h: Helpers): (r: seq<ClientCall>)
    ensures r != [] <==> h.requestContentType(op).Some?
    ensures forall c :: c in r ==> c == AddRequestHeader(ContentTypeHeader, h.requestContentType(op).value)
  {
    match h.requestContentType(op)
    case None => []
    case Some(ct) => [AddRequestHeader(ContentTypeHeader, ct)]
  }

  function ParametersOf(op: Operation): seq<Parameter>
  {
    if op.parameters.Some? then op.parameters.value else []
  }

  /** Everything the client receives when the operation at `path`/`httpMethod` is invoked. */
  function SendRequestCalls(doc: Document, url: string, path: string, httpMethod: string, op: Operation,
                            vars: set<string>, h: Helpers): seq<ClientCall>
  {
    var ps := ParametersOf(op);
    RequiredParamCalls(ps, "header", h) + RequiredParamCalls(ps, "query", h) + BodyCalls(doc, op, h)
    + ContentTypeCalls(op, h)
    + [SetUrl(url), SendClientRequest(Upper(httpMethod), Substitute(path, PathParams(ps), vars, h))]
  }

  /** Invoking an operation sends exactly one request, as its last call, with the
      upper-cased method and the substituted path; a Content-Type header is among
      the calls when the operation declares a request content type. */
  lemma {:induction false} SendRequestSendsOnce(doc: Document, url: string, path: string, httpMethod: string, op: Operation,
                                                vars: set<string>, h: Helpers)
    ensures var r := SendRequestCalls(doc, url, path, httpMethod, op, vars, h);
      && r[|r| - 1] == SendClientRequest(Upper(httpMethod), Substitute(path, PathParams(ParametersOf(op)), vars, h))
      && (forall i :: 0 <= i < |r| - 1 ==> !r[i].SendClientRequest?)
      && (h.requestContentType(op).Some? ==> AddRequestHeader(ContentTypeHeader, h.requestContentType(op).value) in r)
  {
    var ps := ParametersOf(op);
    var r := SendRequestCalls(doc, url, path, httpMethod, op, vars, h);
    RequiredParamCallsKind(ps, "header", h);
    RequiredParamCallsKind(ps, "query", h);
    var prefix := RequiredParamCalls(ps, "header", h) + RequiredParamCalls(ps, "query", h) + BodyCalls(doc, op, h)
      + ContentTypeCalls(op, h);
    assert r == prefix + [SetUrl(url), SendClientRequest(Upper(httpMethod), Substitute(path, PathParams(ps), vars, h))];
    forall i | 0 <= i < |r| - 1 ensures !r[i].SendClientRequest? {
      if i < |prefix| {
        assert r[i] in prefix;
      }
    }
    if h.requestContentType(op).Some? {
      assert r[|prefix| - 1] == AddRequestHeader(ContentTypeHeader, h.requestContentType(op).value);
    }
  }

  /** The request carries a Content-Type header with value `v` exactly when the
      operation's request content type is `v`, or a required header parameter named
      Content-Type got `v` as its generated value: no other call adds that header. */
  lemma {:induction false} ContentTypeHeaderExactly(doc: Document, url: string, path: string, httpMethod: string,
                                                    op: Operation, vars: set<string>, h: Helpers, v: string)
    ensures AddRequestHeader(ContentTypeHeader, v) in SendRequestCalls(doc, url, path, httpMethod, op, vars, h) <==>
      || h.requestContentType(op) == Some(v)
      || exists p :: p in ParametersOf(op) && RequiredIn(p, "header") && p.name == ContentTypeHeader
           && v == h.headerValue(p.schema)
  {
    var ps := ParametersOf(op);
    var c := AddRequestHeader(ContentTypeHeader, v);
    var headers := RequiredParamCalls(ps, "header", h);
    var queries := RequiredParamCalls(ps, "query", h);
    var r := SendRequestCalls(doc, url, path, httpMethod, op, vars, h);
    assert r == headers + queries + BodyCalls(doc, op, h) + ContentTypeCalls(op, h)
      + [SetUrl(url), SendClientRequest(Upper(httpMethod), Substitute(path, PathParams(ps), vars, h))];
    RequiredParamCallsKind(ps, "query", h);
    assert c !in queries;
    assert c !in BodyCalls(doc, op, h);
    assert c in ContentTypeCalls(op, h) <==> h.requestContentType(op) == Some(v);
    RequiredParamCallsExactly(ps, "header", h, c);
  }

  /* ---------------- describing the expected response ---------------- */

  /** Verifying a response asks the client to receive exactly once, as the last
      call, with the status the key stands for; every call before it sets an
      expected header, the expected body or the inbound dictionary. */
  lemma ReceiveResponseReceivesOnce(doc: Document, op: Operation, status: string, h: Helpers)
    ensures var r := ReceiveResponseCalls(doc, op, status, h);
      && r[|r| - 1] == ReceiveClientResponse(ExpectedStatus(status))
      && forall i :: 0 <= i < |r| - 1 ==>
           r[i].AddResponseHeader? || r[i].SetResponseBody? || r[i].SetInboundDictionary?
  {
    var r := ReceiveResponseCalls(doc, op, status, h);
    var defs := DefinitionCalls(ResponseFor(op, status), h);
    var prefix := defs + ResponseContentTypeCalls(doc, op, h);
    assert r == prefix + [ReceiveClientResponse(ExpectedStatus(status))];
    if ResponseFor(op, status).Some? {
      var headers := h.requiredHeaders(ResponseFor(op, status).value);
      if headers.Some? {
        HeaderExpectationsOnePerHeader(headers.value, h);
      }
    }
    forall i | 0 <= i < |r| - 1
      ensures r[i].AddResponseHeader? || r[i].SetResponseBody? || r[i].SetInboundDictionary?
    {
      assert r[i] == prefix[i];
      if i < |defs| {
        assert defs[i] in defs;
      }
    }
  }

  /** The response definition for `status`: its own item if present, else the default. */
  function ResponseFor(op: Operation, status: string): (r: Option<Response>)
    ensures op.responses.Some? && status in op.responses.value.items ==> r == Some(op.responses.value.items[status])
    ensures op.responses.Some? && status !in op.responses.value.items ==> r == op.responses.value.default_
    ensures r.None? <==> op.responses.None? || (status !in op.responses.value.items && op.responses.value.default_.None?)
  {
    match op.responses
    case None => None
    case Some(rs) => if status in rs.items then Some(rs.items[status]) else rs.default_
  }

  /** One expected header per required response header, each with the
      header schema's validation expression. */
  function HeaderExpectations(headers: seq<(string, Schema)>, h: Helpers): seq<ClientCall>
  {
    if headers == [] then []
    else
      var last := headers[|headers| - 1];
      HeaderExpectations(headers[..|headers| - 1], h) + [AddResponseHeader(last.0, h.validationExpression(last.1))]
  }

  lemma {:induction false} HeaderExpectationsOnePerHeader(headers: seq<(string, Schema)>, h: Helpers)
    ensures |HeaderExpectations(headers, h)| == |headers|
    ensures forall k :: 0 <= k < |headers| ==>
      HeaderExpectations(headers, h)[k] == AddResponseHeader(headers[k].0, h.validationExpression(headers[k].1))
  {
    if headers != [] {
      HeaderExpectationsOnePerHeader(headers[..|headers| - 1], h);
    }
  }

  function ResponseBodyCalls(schema: Option<Schema>, h: Helpers): (r: seq<ClientCall>)
    ensures (exists b :: SetResponseBody(b) in r) <==> schema.Some?
    ensures SetInboundDictionary in r <==> schema.Some? && h.IsStructured(schema.value)
    ensures forall c :: c in r ==> c.SetResponseBody? || c.SetInboundDictionary?
  {
    match schema
    case None => []
    case Some(s) => [SetResponseBody(h.inboundPayload(s))] + (if h.IsStructured(s) then [SetInboundDictionary] else [])
  }

  /** Header and body expectations of a response definition; none without one. */
  function DefinitionCalls(response: Option<Response>, h: Helpers): seq<ClientCall>
  {
    match response
    case None => []
    case Some(resp) =>
      var headers := h.requiredHeaders(resp);
      (if headers.Some? then HeaderExpectations(headers.value, h) else [])
      + ResponseBodyCalls(h.responseSchema(resp), h)
  }

  function ResponseContentTypeCalls(doc: Document, op: Operation, h: Helpers): (r: seq<ClientCall>)
    ensures r != [] <==> h.responseContentType(doc, op).Some?
    ensures forall c :: c in r ==> c == AddResponseHeader(ContentTypeHeader, h.responseContentType(doc, op).value)
  {
    match h.responseContentType(doc, op)
    case None => []
    case Some(ct) => [AddResponseHeader(ContentTypeHeader, ct)]
  }

  /** The status a response key stands for: its number when it is all digits,
      200 for any other key. */
  function ExpectedStatus(status: string): (r: int)
    ensures r >= 0
    ensures !AllDigits(status) ==> r == StatusOk
  {
    if AllDigits(status) then DigitsValue(status) else StatusOk
  }

  /** Everything the client receives when the response for `status` is verified. */
  function ReceiveResponseCalls(doc: Document, op: Operation, status: string, h: Helpers): seq<ClientCall>
  {
    DefinitionCalls(ResponseFor(op, status), h) + ResponseContentTypeCalls(doc, op, h)
    + [ReceiveClientResponse(ExpectedStatus(status))]
  }

  /** Verifying by a numeric result expects exactly that number when it is not
      negative; the sign of a negative one fails the `[0-9]+` test, so 200 is
      expected instead. */
  lemma ExpectedStatusOfNumber(n: int)
    ensures ExpectedStatus(DecimalString(n)) == if n >= 0 then n else StatusOk
  {
    if n >= 0 {
      DigitsRoundTrip(n);
    } else {
      assert !IsDigit(DecimalString(n)[0]);
    }
  }

  /** The response definition for a key is the exact item when the operation has
      one, else the default; when neither exists (or the operation has no
      responses) only the content type and the status are expected. */
  lemma ReceiveResponseFallback(doc: Document, op: Operation, status: string, h: Helpers)
    ensures op.responses.Some? && status in op.responses.value.items ==>
      ReceiveResponseCalls(doc, op, status, h)
      == DefinitionCalls(Some(op.responses.value.items[status]), h) + ResponseContentTypeCalls(doc, op, h)
         + [ReceiveClientResponse(ExpectedStatus(status))]
    ensures op.responses.Some? && status !in op.responses.value.items ==>
      ReceiveResponseCalls(doc, op, status, h)
      == DefinitionCalls(op.responses.value.default_, h) + ResponseContentTypeCalls(doc, op, h)
         + [ReceiveClientResponse(ExpectedStatus(status))]
    ensures op.responses.None? || (status !in op.responses.value.items && op.responses.value.default_.None?) ==>
      ReceiveResponseCalls(doc, op, status, h)
      == ResponseContentTypeCalls(doc, op, h) + [ReceiveClientResponse(ExpectedStatus(status))]
  {
  }

  /** The header (or query) parameter loop of the request builder: one call per
      required parameter declared in `location`, in declaration order. */
  method AddRequiredParams(ps: seq<Parameter>, location: string, h: Helpers) returns (added: seq<ClientCall>)
    ensures added == RequiredParamCalls(ps, location, h)
  {
    added := [];
    var i := 0;
    while i < |ps|
      invariant 0 <= i <= |ps|
      invariant added == RequiredParamCalls(ps[..i], location, h)
    {
      assert ps[..i + 1][..i] == ps[..i];
      if RequiredIn(ps[i], location) {
        added := added + [ParamCall(ps[i], location, h)];
      }
      i := i + 1;
    }
    assert ps[..i] == ps;
  }

  /** The path loop of the request builder: each path parameter in turn replaces
      every `{name}` in the path built so far. */
  method RandomizePath(path: string, pathParams: seq<Parameter>, vars: set<string>, h: Helpers) returns (randomizedPath: string)
    ensures randomizedPath == Substitute(path, pathParams, vars, h)
  {
    randomizedPath := path;
    var i := 0;
    while i < |pathParams|
      invariant 0 <= i <= |pathParams|
      invariant randomizedPath == Substitute(path, pathParams[..i], vars, h)
    {
      assert pathParams[..i + 1][..i] == pathParams[..i];
      var parameter := pathParams[i];
      var value;
      if parameter.name in vars {
        value := VariableReference(parameter.name);
      } else {
        value := h.randomValue(parameter.schema);
      }
      randomizedPath := ReplaceAll(randomizedPath, Placeholder(parameter.name), value);
      i := i + 1;
    }
    assert pathParams[..i] == pathParams;
  }

  /** The loop over the required response headers: one expectation per header. */
  method ExpectRequiredHeaders(headers: seq<(string, Schema)>, h: Helpers) returns (added: seq<ClientCall>)
    ensures added == HeaderExpectations(headers, h)
  {
    added := [];
    var i := 0;
    while i < |headers|
      invariant 0 <= i <= |headers|
      invariant added == HeaderExpectations(headers[..i], h)
    {
      assert headers[..i + 1][..i] == headers[..i];
      added := added + [AddResponseHeader(headers[i].0, h.validationExpression(headers[i].1))];
      i := i + 1;
    }
    assert headers[..i] == headers;
  }

  /* ---------------- the step object ---------------- */

  /** The step object: the operation of the last successful invocation, the
      configured timeout and the calls made on the current HTTP client steps. */
  class OpenApiClientSteps {
    var operation: Option<Operation>
    var timeout: int
    var calls: seq<ClientCall>
    const helpers: Helpers

    /** Field initialisation; `defaultTimeout` is the configured OpenAPI timeout setting. */
    constructor (defaultTimeout: int, helpers: Helpers)
      ensures this.helpers == helpers
      ensures operation == None && timeout == defaultTimeout && calls == []
    {
      this.helpers := helpers;
      operation := None;
      timeout := defaultTimeout;
      calls := [];
    }

    /** Scenario start: a fresh client configured with the stored timeout, and no operation. */
    method Before()
      modifies this
      ensures calls == [ClientCall.ConfigureTimeout(timeout)]
      ensures operation == None && timeout == old(timeout)
    {
      calls := [ClientCall.ConfigureTimeout(timeout)];
      operation := None;
    }

    method ConfigureTimeout(t: int)
      modifies this
      ensures timeout == t && calls == old(calls) + [ClientCall.ConfigureTimeout(t)]
      ensures operation == old(operation)
    {
      timeout := t;
      calls := calls + [ClientCall.ConfigureTimeout(t)];
    }

    method ConfigureForkMode(mode: string)
      modifies this
      ensures calls == old(calls) + [ClientCall.ConfigureForkMode(mode)]
      ensures operation == old(operation) && timeout == old(timeout)
    {
      calls := calls + [ClientCall.ConfigureForkMode(mode)];
    }

    /** Sends the request of the first operation carrying `operationId` and
      remembers it; with no such operation nothing happens at all. */
    method InvokeOperation(doc: Document, url: string, vars: set<string>, operationId: string)
      modifies this
      ensures timeout == old(timeout)
      ensures match Locate(doc.paths, operationId)
        case None => operation == old(operation) && calls == old(calls)
        case Some(ij) =>
          var item := doc.paths[ij.0];
          var entry := item.operations[ij.1];
          operation == Some(entry.1)
          && calls == old(calls) + SendRequestCalls(doc, url, item.path, entry.0, entry.1, vars, helpers)
    {
      var i := 0;
      while i < |doc.paths|
        invariant 0 <= i <= |doc.paths|
        invariant forall k :: 0 <= k < i ==> FirstMatch(doc.paths[k].operations, operationId).None?
        invariant operation == old(operation) && calls == old(calls) && timeout == old(timeout)
      {
        var item := doc.paths[i];
        var found := FirstMatch(item.operations, operationId);
        if found.Some? {
          LocateScan(doc.paths, operationId, i);
          var entry := item.operations[found.value];
          operation := Some(entry.1);
          SendRequest(doc, url, vars, item.path, entry.0, entry.1);
          return;
        }
        i := i + 1;
      }
      LocateScan(doc.paths, operationId, i);
    }

    /** Builds and sends the request for `op`, declared at `path` under `httpMethod`. */
    method SendRequest(doc: Document, url: string, vars: set<string>, path: string, httpMethod: string, op: Operation)
      modifies this`calls
      ensures calls == old(calls) + SendRequestCalls(doc, url, path, httpMethod, op, vars, helpers)
    {
      var ps := ParametersOf(op);
      var headerCalls := AddRequiredParams(ps, "header", helpers);
      var queryCalls := AddRequiredParams(ps, "query", helpers);

      var bodyCalls := [];
      var body := helpers.requestBodySchema(doc, op);
      if body.Some? {
        bodyCalls := [SetRequestBody(helpers.outboundPayload(body.value))];
        if helpers.IsStructured(body.value) {
          bodyCalls := bodyCalls + [SetOutboundDictionary];
        }
      }
      assert bodyCalls == BodyCalls(doc, op, helpers);

      var randomizedPath := RandomizePath(path, PathParams(ps), vars, helpers);

      var contentTypeCalls := [];
      var contentType := helpers.requestContentType(op);
      if contentType.Some? {
        contentTypeCalls := [AddRequestHeader(ContentTypeHeader, contentType.value)];
      }
      assert contentTypeCalls == ContentTypeCalls(op, helpers);

      calls := calls + (headerCalls + queryCalls + bodyCalls + contentTypeCalls
                        + [SetUrl(url), SendClientRequest(Upper(httpMethod), randomizedPath)]);
    }

    method VerifyResponseByStatus(doc: Document, response: int) returns (outcome: Outcome<StepError>)
      modifies this
      ensures outcome.Fail? <==> operation.None?
      ensures operation == old(operation) && timeout == old(timeout)
      ensures calls == if operation.None? then old(calls)
        else old(calls) + ReceiveResponseCalls(doc, operation.value, DecimalString(response), helpers)
    {
      outcome := ReceiveResponse(doc, DecimalString(response));
    }

    method VerifyResponseByName(doc: Document, response: string) returns (outcome: Outcome<StepError>)
      modifies this
      ensures outcome.Fail? <==> operation.None?
      ensures operation == old(operation) && timeout == old(timeout)
      ensures calls == if operation.None? then old(calls)
        else old(calls) + ReceiveResponseCalls(doc, operation.value, response, helpers)
    {
      outcome := ReceiveResponse(doc, response);
    }

    /** Describes the expected response of the stored operation for `status`. */
    method ReceiveResponse(doc: Document, status: string) returns (outcome: Outcome<StepError>)
      modifies this`calls
      ensures outcome.Fail? <==> operation.None?
      ensures calls == if operation.None? then old(calls)
        else old(calls) + ReceiveResponseCalls(doc, operation.value, status, helpers)
    {
      if operation.None? {
        return Fail(NoOperation);
      }
      var op := operation.value;
      var definitionCalls := [];
      if op.responses.Some? {
        var items := op.responses.value.items;
        var response := if status in items then Some(items[status]) else op.responses.value.default_;
        if response.Some? {
          var headers := helpers.requiredHeaders(response.value);
          if headers.Some? {
            definitionCalls := ExpectRequiredHeaders(headers.value, helpers);
          }
          var bodyCalls := [];
          var schema := helpers.responseSchema(response.value);
          if schema.Some? {
            bodyCalls := [SetResponseBody(helpers.inboundPayload(schema.value))];
            if helpers.IsStructured(schema.value) {
              bodyCalls := bodyCalls + [SetInboundDictionary];
            }
          }
          assert bodyCalls == ResponseBodyCalls(schema, helpers);
          definitionCalls := definitionCalls + bodyCalls;
        }
      }
      assert definitionCalls == DefinitionCalls(ResponseFor(op, status), helpers);

      var contentTypeCalls := [];
      var contentType := helpers.responseContentType(doc, op);
      if contentType.Some? {
        contentTypeCalls := [AddResponseHeader(ContentTypeHeader, contentType.value)];
      }
      assert contentTypeCalls == ResponseContentTypeCalls(doc, op, helpers);

      var expected := ExpectedStatus(status);
      calls := calls + (definitionCalls + contentTypeCalls + [ReceiveClientResponse(expected)]);
      outcome := Pass;
    }
  }
}

=== FILE: text.dfy ===
/** String operations the core relies on: prefix tests, Java's `replaceAll` on a
    literal pattern, ASCII upper-casing and decimal digit strings. */
module Text {

  /** `s` holds `pat` starting at index `k`. */
  predicate MatchAt(s: string, k: nat, pat: string)
  {
    k + |pat| <= |s| && s[k..k + |pat|] == pat
  }

  /** `pat` occurs somewhere in `s`. */
  predicate Occurs(s: string, pat: string)
  {
    exists k: nat | k <= |s| :: MatchAt(s, k, pat)
  }

  /** Replaces every occurrence of the non-empty literal `pat`, scanning left to
      right and resuming after each replaced occurrence, as `Matcher.replaceAll`
      does for a pattern without regular-expression meta-characters. */
  function ReplaceAll(s: string, pat: string, rep: string): string
    requires pat != []
    decreases |s|
  {
    if |s| < |pat| then s
    else if s[..|pat|] == pat then rep + ReplaceAll(s[|pat|..], pat, rep)
    else [s[0]] + ReplaceAll(s[1..], pat, rep)
  }

  lemma MatchAtTail(s: string, k: nat, pat: string)
    requires s != []
    ensures MatchAt(s[1..], k, pat) <==> MatchAt(s, k + 1, pat)
  {
    if k + 1 + |pat| <= |s| {
      assert s[1..][k..k + |pat|] == s[k + 1..k + 1 + |pat|];
    }
  }

  /** A string in which the pattern does not occur comes back unchanged. */
  lemma {:induction false} ReplaceAllNoOccurrence(s: string, pat: string, rep: string)
    requires pat != []
    requires !Occurs(s, pat)
    ensures ReplaceAll(s, pat, rep) == s
    decreases |s|
  {
    if |s| >= |pat| {
      assert !MatchAt(s, 0, pat);
      forall k: nat ensures !MatchAt(s[1..], k, pat) {
        MatchAtTail(s, k, pat);
      }
      ReplaceAllNoOccurrence(s[1..], pat, rep);
    }
  }

  /** The first occurrence is replaced, the text before it is kept as it is, and
      the scan resumes right after that occurrence. Together with
      `ReplaceAllNoOccurrence` this determines `ReplaceAll` on every input. */
  lemma {:induction false} ReplaceAllFirstOccurrence(a: string, pat: string, b: string, rep: string)
    requires pat != []
    requires forall k: nat :: k < |a| ==> !MatchAt(a + pat + b, k, pat)
    ensures ReplaceAll(a + pat + b, pat, rep) == a + rep + ReplaceAll(b, pat, rep)
    decreases |a|
  {
    var s := a + pat + b;
    if a == [] {
      assert s == pat + b;
      assert s[..|pat|] == pat && s[|pat|..] == b;
    } else {
      var t := a[1..] + pat + b;
      assert s[1..] == t;
      assert !MatchAt(s, 0, pat);
      assert s[..|pat|] != pat;
      forall k: nat | k < |a[1..]| ensures !MatchAt(t, k, pat) {
        MatchAtTail(s, k, pat);
      }
      ReplaceAllFirstOccurrence(a[1..], pat, b, rep);
      calc {
        ReplaceAll(s, pat, rep);
        [s[0]] + ReplaceAll(t, pat, rep);
        [a[0]] + (a[1..] + rep + ReplaceAll(b, pat, rep));
        { assert a == [a[0]] + a[1..]; }
        a + rep + ReplaceAll(b, pat, rep);
      }
    }
  }

  function UpperChar(c: char): char
  {
    if 'a' <= c <= 'z' then (c as int - 'a' as int + 'A' as int) as char else c
  }

  /** `String.toUpperCase` restricted to ASCII letters. */
  function Upper(s: string): (r: string)
    ensures |r| == |s|
    ensures forall i :: 0 <= i < |s| && !('a' <= s[i] <= 'z') ==> r[i] == s[i]
    ensures forall i :: 0 <= i < |r| ==> !('a' <= r[i] <= 'z')
  {
    seq(|s|, i requires 0 <= i < |s| => UpperChar(s[i]))
  }

  predicate IsDigit(c: char)
  {
    '0' <= c <= '9'
  }

  /** The whole string matches the regular expression `[0-9]+`. */
  predicate AllDigits(s: string)
  {
    |s| > 0 && forall i :: 0 <= i < |s| ==> IsDigit(s[i])
  }

  function DigitChar(d: nat): char
    requires d < 10
  {
    ('0' as int + d) as char
  }

  /** The value `Integer.parseInt` gives a digit string (without its overflow). */
  function DigitsValue(s: string): nat
    requires forall i :: 0 <= i < |s| ==> IsDigit(s[i])
  {
    if s == [] then 0
    else
      var last := s[|s| - 1];
      assert IsDigit(last);
      DigitsValue(s[..|s| - 1]) * 10 + (last as int - '0' as int)
  }

  /** Shortest decimal digits of `n`, as `String.valueOf` writes a non-negative number. */
  function Digits(n: nat): (r: string)
    ensures |r| >= 1
    ensures n > 0 ==> r[0] != '0'
  {
    if n < 10 then [DigitChar(n)] else Digits(n / 10) + [DigitChar(n % 10)]
  }

  /** `String.valueOf(int)`: a minus sign before the digits of a negative number. */
  function DecimalString(n: int): (r: string)
    ensures n >= 0 ==> AllDigits(r) && DigitsValue(r) == n
    ensures n < 0 ==> |r| >= 2 && r[0] == '-' && AllDigits(r[1..]) && DigitsValue(r[1..]) == -n
  {
    if n < 0 then
      DigitsRoundTrip(-n);
      assert ("-" + Digits(-n))[1..] == Digits(-n);
      "-" + Digits(-n)
    else
      DigitsRoundTrip(n);
      Digits(n)
  }

  /** A digit string whose first digit is not zero has a positive value. */
  lemma {:induction false} DigitsValueLeading(s: string)
    requires AllDigits(s) && s[0] != '0'
    ensures DigitsValue(s) >= 1
    decreases |s|
  {
    if |s| > 1 {
      var init := s[..|s| - 1];
      assert init[0] == s[0];
      DigitsValueLeading(init);
    }
  }

  /** Parsing a digit string without leading zeros and printing the number gives
      the string back: with `DigitsRoundTrip`, `Digits` and `DigitsValue` are
      inverse on canonical digit strings. */
  lemma {:induction false} DigitsParseRoundTrip(s: string)
    requires AllDigits(s) && (|s| == 1 || s[0] != '0')
    ensures Digits(DigitsValue(s)) == s
    decreases |s|
  {
    var init, last := s[..|s| - 1], s[|s| - 1];
    var d := last as int - '0' as int;
    if |s| == 1 {
      assert DigitsValue(init) == 0;
      assert DigitChar(d) == last;
      assert s == [last];
    } else {
      assert init[0] == s[0];
      DigitsValueLeading(init);
      DigitsParseRoundTrip(init);
      var v := DigitsValue(s);
      assert v == DigitsValue(init) * 10 + d;
      assert v / 10 == DigitsValue(init) && v % 10 == d;
      assert DigitChar(d) == last;
      assert s == init + [last];
    }
  }

  /** Printing a number and parsing it back gives the number. */
  lemma {:induction false} DigitsRoundTrip(n: nat)
    ensures AllDigits(Digits(n))
    ensures DigitsValue(Digits(n)) == n
  {
    if n >= 10 {
      DigitsRoundTrip(n / 10);
      var s := Digits(n);
      assert s[..|s| - 1] == Digits(n / 10);
    }
  }
}

=== FILE: vfs_gen.dfy ===
/** The resource generator's file filters: which files of the embedded resource
    tree are skipped, the exclusion list built from `.vfsignore` marker files, and
    the file-info wrapper that hides modification times. Paths use `/` as the
    separator. */
module VfsGen {
  import opened Wrappers

  /** Base names of files that are never embedded. */
  const NamedFiles: seq<string> := ["kustomization.yaml", "Makefile", "Dockerfile", ".gitignore", "PROJECT"]

  /** Directories, given as path prefixes, whose contents are never embedded. */
  const ParentDirs: seq<string> := ["/bundle", "/operator/patches"]

  /** The last element of `path` after trailing slashes are dropped, as
      `filepath.Base` computes it on a Unix system: `.` for the empty path and `/`
      for a path of slashes only. */
  function Base(path: string): (b: string)
    ensures b != []
    ensures '/' in b ==> b == "/"
  {
    if path == [] then "."
    else
      var trimmed := TrimTrailingSlashes(path);
      if trimmed == [] then "/" else AfterLastSlash(trimmed)
  }

  function TrimTrailingSlashes(s: string): (r: string)
    ensures r <= s
    ensures r == [] || r[|r| - 1] != '/'
  {
    if s == [] || s[|s| - 1] != '/' then s else TrimTrailingSlashes(s[..|s| - 1])
  }

  /** The part of `s` after its last `/`, all of `s` when it has none. */
  function AfterLastSlash(s: string): (r: string)
    ensures '/' !in r
    ensures s != [] && s[|s| - 1] != '/' ==> r != []
  {
    if s == [] || s[|s| - 1] == '/' then []
    else AfterLastSlash(s[..|s| - 1]) + [s[|s| - 1]]
  }

  /** The base name of `dir/name` is `name`, for a name without a slash. */
  lemma {:induction false} BaseOfChild(dir: string, name: string)
    requires name != [] && '/' !in name
    ensures Base(dir + "/" + name) == name
  {
    var p := dir + "/" + name;
    assert p[|p| - 1] == name[|name| - 1];
    assert TrimTrailingSlashes(p) == p;
    AfterLastSlashOfChild(dir + "/", name);
  }

  lemma {:induction false} AfterLastSlashOfChild(prefix: string, name: string)
    requires prefix != [] && prefix[|prefix| - 1] == '/'
    requires '/' !in name
    ensures AfterLastSlash(prefix + name) == name
    decreases |name|
  {
    if name != [] {
      var s := prefix + name;
      assert s[..|s| - 1] == prefix + name[..|name| - 1];
      assert s[|s| - 1] == name[|name| - 1];
      AfterLastSlashOfChild(prefix, name[..|name| - 1]);
    } else {
      assert prefix + name == prefix;
    }
  }

  /** Go's `strings.HasPrefix`. */
  predicate HasPrefix(s: string, prefix: string)
    ensures HasPrefix(s, prefix) <==> |prefix| <= |s| && s[..|prefix|] == prefix
  {
    prefix <= s
  }

  /** `NamedFilesFilter(names...)` applied to one path: a directory is never
      skipped, a file exactly when its base name is one of `names`. */
  method NamedFilesFilter(names: seq<string>, path: string, isDir: bool) returns (skip: bool)
    ensures skip <==> !isDir && Base(path) in names
  {
    if isDir {
      return false;
    }
    var base := Base(path);
    var i := 0;
    while i < |names|
      invariant 0 <= i <= |names|
      invariant base !in names[..i]
    {
      if names[i] == base {
        return true;
      }
      assert names[..i + 1] == names[..i] + [names[i]];
      i := i + 1;
    }
    assert names[..i] == names;
    return false;
  }

  /** `IgnoreParentDirFilter(parentDirs...)` applied to one path: skipped exactly
      when one of `parentDirs` is a plain string prefix of it, with no regard to
      path element boundaries. */
  method IgnoreParentDirFilter(parentDirs: seq<string>, path: string) returns (skip: bool)
    ensures skip <==> exists i :: 0 <= i < |parentDirs| && HasPrefix(path, parentDirs[i])
  {
    var i := 0;
    while i < |parentDirs|
      invariant 0 <= i <= |parentDirs|
      invariant forall j :: 0 <= j < i ==> !HasPrefix(path, parentDirs[j])
    {
      if HasPrefix(path, parentDirs[i]) {
        return true;
      }
      i := i + 1;
    }
    return false;
  }

  /** The generator's own exclusion filter over the collected exclusions: skipped
      exactly when some exclusion is a string prefix of the path. It is written out
      separately from `IgnoreParentDirFilter` but decides the same way. */
  method ExclusionFilter(exclusions: seq<string>, path: string) returns (skip: bool)
    ensures skip <==> exists i :: 0 <= i < |exclusions| && HasPrefix(path, exclusions[i])
  {
    skip := IgnoreParentDirFilter(exclusions, path);
  }

  /** The prefix match does not stop at element boundaries: `/bundlex` is skipped
      by the `/bundle` entry. */
  lemma BundlePrefixSkipsSibling()
    ensures exists i :: 0 <= i < |ParentDirs| && HasPrefix("/bundlex", ParentDirs[i])
    ensures exists i :: 0 <= i < |ParentDirs| && HasPrefix("/bundle/manifests/csv.yaml", ParentDirs[i])
  {
    assert HasPrefix("/bundlex", ParentDirs[0]);
    assert HasPrefix("/bundle/manifests/csv.yaml", ParentDirs[0]);
  }

  /** `Makefile` is skipped in every directory. */
  lemma MakefileSkippedAnywhere(dir: string)
    ensures Base(dir + "/Makefile") in NamedFiles
  {
    assert '/' !in "Makefile";
    BaseOfChild(dir, "Makefile");
    assert dir + "/" + "Makefile" == dir + "/Makefile";
    assert NamedFiles[1] == "Makefile";
  }

  /* ---------------- exclusions from .vfsignore markers ---------------- */

  /** The outcome of looking up `.vfsignore` in a directory. */
  datatype StatResult = Exists | NotExist | StatFailed

  /** One entry the directory walk visits: whether it is a directory, its path
      relative to the walked directory (`None` if that could not be computed), and
      what looking up its `.vfsignore` gave. */
  datatype WalkEntry = WalkEntry(isDir: bool, rel: Option<string>, ignoreFile: StatResult)

  /** The generator stops with a fatal log message. */
  datatype Fatal = Fatal

  /** A relative path made absolute within the resource tree: a leading `/` is added
      unless it is there already. */
  function NormalizeExclusion(rel: string): (r: string)
    ensures HasPrefix(r, "/")
    ensures HasPrefix(rel, "/") <==> r == rel
    ensures !HasPrefix(rel, "/") <==> r == "/" + rel
  {
    if HasPrefix(rel, "/") then rel else "/" + rel
  }

  /** What the walk callback adds for one entry, or the fatal stop. */
  function ExclusionOf(e: WalkEntry): (r: Result<seq<string>, Fatal>)
    ensures r.Err? <==> e.isDir && (e.ignoreFile == StatFailed || (e.ignoreFile == Exists && e.rel.None?))
    ensures r.Ok? ==> |r.value| <= 1
    ensures r.Ok? && r.value != [] <==> e.isDir && e.ignoreFile == Exists && e.rel.Some?
    ensures r.Ok? && r.value != [] ==> r.value == [NormalizeExclusion(e.rel.value)]
  {
    if !e.isDir then Ok([])
    else match e.ignoreFile
      case NotExist => Ok([])
      case StatFailed => Err(Fatal)
      case Exists => if e.rel.None? then Err(Fatal) else Ok([NormalizeExclusion(e.rel.value)])
  }

  /** The exclusions collected over the walked entries, in walk order; the first
      fatal entry stops everything. */
  function Exclusions(entries: seq<WalkEntry>): (r: Result<seq<string>, Fatal>)
    ensures r.Ok? ==> forall x :: x in r.value ==> HasPrefix(x, "/")
    ensures r.Ok? ==> |r.value| <= |entries|
  {
    if entries == [] then Ok([])
    else match Exclusions(entries[..|entries| - 1])
      case Err(f) => Err(f)
      case Ok(xs) =>
        match ExclusionOf(entries[|entries| - 1])
        case Err(f) => Err(f)
        case Ok(x) => Ok(xs + x)
  }

  /** Exactly the directories holding a `.vfsignore` become exclusions, when no
      entry stops the walk. */
  lemma {:induction false} ExclusionsExactly(entries: seq<WalkEntry>)
    requires Exclusions(entries).Ok?
    ensures forall x :: x in Exclusions(entries).value <==>
      exists i :: 0 <= i < |entries| && entries[i].isDir && entries[i].ignoreFile == Exists
        && entries[i].rel.Some? && x == NormalizeExclusion(entries[i].rel.value)
  {
    if entries != [] {
      var init := entries[..|entries| - 1];
      var last := entries[|entries| - 1];
      ExclusionsExactly(init);
      var tail := ExclusionOf(last).value;
      assert Exclusions(entries).value == Exclusions(init).value + tail;
      assert tail == if last.isDir && last.ignoreFile == Exists && last.rel.Some?
        then [NormalizeExclusion(last.rel.value)] else [];
      forall x ensures x in Exclusions(entries).value <==>
        exists i :: 0 <= i < |entries| && entries[i].isDir && entries[i].ignoreFile == Exists
          && entries[i].rel.Some? && x == NormalizeExclusion(entries[i].rel.value)
      {
        if exists i :: (0 <= i < |entries| && entries[i].isDir && entries[i].ignoreFile == Exists
                        && entries[i].rel.Some? && x == NormalizeExclusion(entries[i].rel.value)) {
          var i :| 0 <= i < |entries| && entries[i].isDir && entries[i].ignoreFile == Exists
            && entries[i].rel.Some? && x == NormalizeExclusion(entries[i].rel.value);
          if i < |init| {
            assert init[i] == entries[i];
          }
        }
        if x in Exclusions(init).value {
          var i :| 0 <= i < |init| && init[i].isDir && init[i].ignoreFile == Exists
            && init[i].rel.Some? && x == NormalizeExclusion(init[i].rel.value);
          assert entries[i] == init[i];
        }
      }
    }
  }

  /** Once a prefix of the walk is fatal, the whole walk is. */
  lemma {:induction false} ExclusionsFatalPrefix(entries: seq<WalkEntry>, i: nat)
    requires i <= |entries|
    requires Exclusions(entries[..i]) == Err(Fatal)
    ensures Exclusions(entries) == Err(Fatal)
    decreases |entries|
  {
    if i < |entries| {
      var init := entries[..|entries| - 1];
      assert init[..i] == entries[..i];
      ExclusionsFatalPrefix(init, i);
    } else {
      assert entries[..i] == entries;
    }
  }

  /** `calcExclusions` over the entries the walk visits (the walks of all
      directory names, one after the other). */
  method CalcExclusions(entries: seq<WalkEntry>) returns (r: Result<seq<string>, Fatal>)
    ensures r == Exclusions(entries)
  {
    var exclusions: seq<string> := [];
    var i := 0;
    while i < |entries|
      invariant 0 <= i <= |entries|
      invariant Exclusions(entries[..i]) == Ok(exclusions)
    {
      assert entries[..i + 1][..i] == entries[..i];
      var e := entries[i];
      if e.isDir {
        if e.ignoreFile == Exists {
          if e.rel.None? {
            ExclusionsFatalPrefix(entries, i + 1);
            return Err(Fatal);
          }
          var rel := e.rel.value;
          if !HasPrefix(rel, "/") {
            rel := "/" + rel;
          }
          assert ExclusionOf(e) == Ok([rel]);
          exclusions := exclusions + [rel];
        } else if e.ignoreFile == StatFailed {
          ExclusionsFatalPrefix(entries, i + 1);
          return Err(Fatal);
        } else {
          assert ExclusionOf(e) == Ok([]);
          assert exclusions + [] == exclusions;
        }
      } else {
        assert ExclusionOf(e) == Ok([]);
        assert exclusions + [] == exclusions;
      }
      i := i + 1;
    }
    assert entries[..i] == entries;
    return Ok(exclusions);
  }

  /* ---------------- the modification-time wrapper ---------------- */

  /** The parts of `os.FileInfo` the generator sees; `modTime` counts from the
      zero time (January 1, year 1, UTC). */
  datatype FileInfo = FileInfo(name: string, size: int, isDir: bool, modTime: int)

  const ZeroTime: int := 0

  /** The file info the wrapping file system reports: the wrapped one with a zero
      modification time, so generated output does not depend on file times. */
  function WrapFileInfo(fi: FileInfo): (r: FileInfo)
    ensures r.modTime == ZeroTime
    ensures r.name == fi.name && r.size == fi.size && r.isDir == fi.isDir
  {
    fi.(modTime := ZeroTime)
  }

  /** `Stat` of a wrapped file: errors pass through, file infos are wrapped. */
  function WrappedStat<E>(stat: Result<FileInfo, E>): (r: Result<FileInfo, E>)
    ensures stat.Err? ==> r == stat
    ensures stat.Ok? ==> r.Ok? && r.value.modTime == ZeroTime && r.value.(modTime := stat.value.modTime) == stat.value
  {
    match stat
    case Err(e) => Err(e)
    case Ok(fi) => Ok(WrapFileInfo(fi))
  }
}

=== FILE: wrappers.dfy ===
/** Failure-compatible wrappers shared by the model: a nullable reference becomes
    an `Option`, a thrown exception or a fatal exit becomes the `Fail`/`Err` arm. */
module Wrappers {

  datatype Option<+T> = None | Some(value: T)

  datatype Outcome<+E> = Pass | Fail(error: E)

  datatype Result<+R, +E> = Ok(value: R) | Err(error: E)
}
